=== FILE: README.md ===
# Speech queue and playback selection of service.xbmc.tts, in Dafny

This project models the two sequential cores of the XBMC/Kodi text-to-speech
service's backend layer as pure state-transition functions, and proves
properties of them.

1. **The speech-request queue and backend lifecycle** (`lib/backends/base.py`).
   A backend is the immutable record `Backend(active, queue, speaking,
   engineSpeaking)`. Its queue holds `Utterance(text)` and `Pause(ms)` items.
   Every caller-side operation returns the new record and the events it
   caused, in order: the engine's stop and close hooks, `player.stop`,
   `player.close`, a drained queue, `threadedSay`, a sleep, and so on. The
   worker thread's loop becomes `WorkerStep`, one iteration with the host's
   abort signal as a boolean input. `RunToIdle` runs the worker until the
   queue is empty. It records two states per item, one while the item is
   handled and one after it, which makes FIFO order, the busy flag and
   teardown order checkable. The short window between the dequeue and the
   raising of the speaking flag is not among them (see "Left out"). The
   module also covers settings-change detection (`_update*`) and the
   broken-backend gate (`_available`).
2. **Player selection and argument construction** (`lib/backends/audio.py`).
   Player descriptors are immutable records. Their argument templates are
   sequences of `Word`s with a `Slot` for Python's `None` placeholder. The
   Unix registry is the sequence aplay, paplay, sox, mplayer. The external
   handler's probing, player selection, stop/close policy and poll loop are
   pure functions of the probe outcomes and of the process state. The
   `WavPlayer` facade's fallback chain is `Choose`. The facade always holds
   a handler: the record has no empty state.

Modules: `Wrappers` (Option, Result), `Commands`, `Handlers`, `Facade`
(audio.py), and `SpeechBase`, `SpeechQueue`, `SpeechRun`, `Settings`
(base.py).

Environment inputs appear as parameters:
- the outcome of each availability probe (`ok: Descriptor -> bool`);
- whether the host has `stopSFX`;
- whether an external-handler factory was given;
- whether the player is currently playing (`playerPlaying`);
- the poll observations of a running process;
- the abort signal;
- the settings store, a map with per-key defaults;
- the built-in handler's time-stamped output path.
- whether the built-in handler's wav file exists when it plays.

## Behaviour followed from the code

The model keeps these behaviours of the code, which are easy to misread:
- `_close` runs the class's whole `_stop` (player stop, drain, stop hook) before the close hook.
- `sayList` does not check `active`, unlike `say`. Items it queues after `_close` are never consumed, and the backend keeps reporting that it is speaking (`SpeechRun.SayListAfterClose`).
- Voice and speed treat a falsy cached value as no baseline, not only a missing one. A change to a falsy value is returned but does not trigger `update` by itself (`Settings.ChangeToFalsyIsSilent`).
- `_updateExtras` stops at the first changed extra, so a second changed extra is reported one call later (`Settings.ExtrasChangeSeenOneCallLate`).

## Model

| member | source | states |
|---|---|---|
| Commands.SlotIndex | lib/backends/audio.py:86 | `list.index(None)`: the position holds the placeholder and no placeholder precedes it |
| Commands.FillSlot | lib/backends/audio.py:86 | the first placeholder is replaced; the length and every other element are unchanged; no placeholder means the ValueError path |
| Commands.SpeedArg | lib/backends/audio.py:78-80 | the speed argument is the speed scaled by the descriptor's multiplier: the speed itself for multiplier 1, and 0 for speed 0 |
| Commands.PlayArgs | lib/backends/audio.py:82-99 | plain descriptors and speed 0: same length as the play template, the output path at the first placeholder, everything else unchanged, speed ignored; a well-formed descriptor never raises |
| Commands.PlayArgsWithSpeed | lib/backends/audio.py:91-99 | advanced descriptor, non-zero speed: the speed-0 result followed by the speed template, whose placeholder holds `speed * speedMultiplier` |
| Commands.PlayArgsTotal | lib/backends/audio.py:82-99 | on a well-formed descriptor `playArgs` succeeds, with the play template's length plus the speed template's when a speed argument is added |
| Commands.UnixRegistryShape | lib/backends/audio.py:101-128 | the registry (ordered as in line 219) is aplay, paplay, sox, mplayer; ids are distinct; every entry is well-formed; only sox and mplayer are advanced, both with multiplier 0.01; only sox is killed |
| Commands.SoxSpeedExample | lib/backends/audio.py:113-120 | sox at speed 50 gives `play -q out.wav tempo -s 0.5`; at speed 0 no registry player gets a speed argument |
| Handlers.SfxPlay | lib/backends/audio.py:40-53 | a missing wav file leaves the built-in handler unchanged and plays nothing; otherwise the host plays the current file, and when the blocking call returns the handler is no longer playing |
| Handlers.SfxClose | lib/backends/audio.py:63-66 | the built-in handler's close clears its wav directory and never signals a process or the host's stop |
| Handlers.SfxStop | lib/backends/audio.py:58-61 | with stopSFX the built-in handler's stop wakes the play's wait and calls the host's stopSFX, and deletes no file; without stopSFX it does nothing; it never kills or terminates a process |
| Handlers.ProbePlayers | lib/backends/audio.py:155-163 | available players are exactly the registry entries whose probe did not raise, as an order-preserving subsequence; `hasAdvancedPlayer` iff one of them is advanced |
| Handlers.FindById | lib/backends/audio.py:144-147 | returns the first available descriptor with that id, and none iff no available descriptor has it |
| Handlers.FirstAdvanced | lib/backends/audio.py:171-174 | returns the first advanced available descriptor, and none iff none is advanced |
| Handlers.SelectPlayer | lib/backends/audio.py:165-181 | an available preferred id wins; on a consistently probed handler the result is none iff nothing is available, and any result is an available descriptor |
| Handlers.SelectPriority | lib/backends/audio.py:165-181 | without an available preferred id: with `advanced` and an advanced player, the first advanced one; otherwise the first available one |
| Handlers.PlayerId | lib/backends/audio.py:149-150 | `player()` is the selected descriptor's id, and None when no player is selected or its id is empty |
| Handlers.PlayerAvailable | lib/backends/audio.py:152-153 | true iff at least one player passed its probe |
| Handlers.IsPlaying | lib/backends/audio.py:197-198 | playing only with a process, and then iff the process has not been seen to exit |
| Handlers.NewExternal | lib/backends/audio.py:132-142 | a new handler is active, has no process and speed 0; its available players are exactly those whose probe succeeded, in registry order; `hasAdvancedPlayer` holds iff one of them is advanced; the selected player is what `setPlayer(preferred, advanced)` picks among them, so there is one iff any is available |
| Handlers.Play | lib/backends/audio.py:192-193 | no selected player raises; otherwise one process is spawned with `playArgs(outFile, speed)` and is playing; nothing else changes |
| Handlers.ObserveExit | lib/backends/audio.py:195-198 | once `poll()` reports an exit, nothing is playing; the handler and the process's arguments are otherwise unchanged |
| Handlers.PlayToEnd | lib/backends/audio.py:192-195 | `play()` to its return: it fails exactly as the spawn does; it sleeps 10 ms per poll that saw the process running and the handler active; a close during the play leaves the handler inactive and adds its kill; afterwards the process is playing iff the handler was closed before the play and the last poll saw no exit; nothing else changes |
| Handlers.ExitEndsPlay | lib/backends/audio.py:192-198 | a process that exits at poll i while the handler stays active ends the play after i sleeps of 10 ms, with the handler still active, nothing playing and no further event |
| Handlers.CloseEndsPlay | lib/backends/audio.py:210-216 | a `close()` seen at poll i of a running play ends it after i sleeps of 10 ms, killed, inactive and with nothing playing |
| Handlers.ClosedHandlerPlaysUnwatched | lib/backends/audio.py:192-195 | a play on an already closed handler returns without sleeping, and its process plays on unless the first poll saw it exit |
| Handlers.PollWaits | lib/backends/audio.py:195 | the poll loop waits exactly while the process runs and the handler is active, and leaves at the first poll where either fails |
| Handlers.ClosedHandlerEndsPolling | lib/backends/audio.py:195 | once a poll sees the handler inactive, which `close` causes, the loop has stopped waiting |
| Handlers.Stop | lib/backends/audio.py:200-208 | no process: nothing happens; otherwise kill iff the selected descriptor says so and terminate otherwise; a kill leaves nothing playing; at most one signal is sent |
| Handlers.Close | lib/backends/audio.py:210-216 | the handler becomes inactive with nothing playing; a kill is sent iff a process exists; nothing else changes |
| Handlers.CloseIdempotent | lib/backends/audio.py:210-216 | a second close leaves the same handler and sends at most the same kill again |
| Handlers.SetSpeed | lib/backends/audio.py:189-190 | only the speed changes |
| Facade.HandlerId | lib/backends/audio.py:149-150 | `handler.player()`: `playSFX` for the built-in handler (line 35), the external handler's selected id otherwise; never an empty id |
| Facade.UseExternal | lib/backends/audio.py:241-249 | the result can play; it is external only if a factory exists and reports an available player |
| Facade.InitHandler | lib/backends/audio.py:229-239 | stopSFX present gives the built-in handler; an external result needs no stopSFX, a factory and an available player |
| Facade.Adoptable | lib/backends/audio.py:254-258 | an external handler is adopted directly only when a preference and a factory exist and the handler's selected id equals the preference |
| Facade.Choose | lib/backends/audio.py:251-259 | a preference equal to the current handler's id keeps it; starting from a usable handler (or none) the result is usable; a new external handler comes from the factory and has an available player |
| Facade.New | lib/backends/audio.py:222-227 | after construction the facade holds a usable handler and keeps the given preference and advanced flag |
| Facade.SetPlayer | lib/backends/audio.py:251-259 | remembers the preference and keeps the handler usable |
| Facade.PreferredAvailableIsAdopted | lib/backends/audio.py:254-258 | a preferred id that some registry player with a successful probe carries is the selected id afterwards |
| Facade.FallbackOrder | lib/backends/audio.py:229-249 | an unmet preference falls back to the built-in handler when stopSFX exists, else to an external handler when any player probes ok, else to the built-in handler |
| Facade.SetPlayerIdempotent | lib/backends/audio.py:251-259 | setting the same preference twice is the same as setting it once |
| Facade.AdvancedPrefersAdvanced | lib/backends/audio.py:241-249 | without stopSFX and a preference, `advanced=True` with a factory whose registry has an advanced player that probes ok yields an external handler that selected an advanced player |
| Facade.DefaultPlayerIsBuiltin | lib/backends/base.py:252-256 | the default `WavPlayer()` of a simple backend always plays through the built-in handler |
| Facade.SetSpeed | lib/backends/audio.py:261-262 | forwarded to the external handler, of which only the speed changes; the built-in handler ignores it; the facade's own fields never change |
| Facade.GetOutFile | lib/backends/audio.py:264-265 | the external handler's fixed path with nothing changed, or the freshly stamped path, which becomes the built-in handler's current file and is the only change (line 32) |
| Facade.IsPlaying | lib/backends/audio.py:270-271 | the facade reports exactly what its current handler reports |
| Facade.Play | lib/backends/audio.py:267-268 | forwarded; the built-in handler keeps its file, plays nothing without it and is not playing after a play; an external play fails as the spawn does, spawns `playArgs(outFile, speed)` first, changes only its process and the active flag a concurrent close clears, and leaves the process playing iff the handler was already closed and no exit was seen; the facade's own fields never change |
| Facade.Stop | lib/backends/audio.py:273-274 | forwarded: on the built-in handler exactly the handler's stop events, so something happens iff stopSFX exists; on an external handler only the process can change, a kill leaves nothing playing, and without a kill the facade is unchanged |
| Facade.Close | lib/backends/audio.py:276-277 | forwarded; an external handler is left inactive with nothing playing, a kill is sent iff it has a process, and nothing else changes; the built-in handler clears its wav directory |
| Facade.CloseTwice | lib/backends/audio.py:276-277 | closing the facade twice leaves it as one close did |
| Settings.ReadVoice | lib/backends/base.py:48-52 | the stored `voice.<provider>`, or the falsy empty string when it is absent |
| Settings.ReadSpeed | lib/backends/base.py:54-58 | the stored `speed.<provider>`, or the falsy 0 when it is absent |
| Settings.ReadExtra | lib/backends/base.py:60-64 | the stored `<extra>.<provider>`, or the extra's declared default when it is absent |
| Settings.Changed | lib/backends/base.py:112-128 | no change unless a truthy cached baseline exists and the new read differs from it; a reported change is the new read; the first read is never a change |
| Settings.UpdateExtras | lib/backends/base.py:130-137 | no extras: no change and no reads; without a change every extra was re-read; settings not among the extras are untouched |
| Settings.ExtrasStopAtFirstChange | lib/backends/base.py:130-137 | when extra k is the first whose non-None baseline differs, a change is reported, extras 0..k are refreshed and later extras are not re-read |
| Settings.ExtrasNoChange | lib/backends/base.py:130-137 | when no extra differs from its baseline, no change is reported and every extra holds its fresh value |
| Settings.ExtrasSeenFresh | lib/backends/base.py:132-136 | after a scan without change each extra's cached value is its latest read |
| Settings.Update | lib/backends/base.py:106-110 | voice and speed caches always become the fresh reads; `update` is called iff the voice result is truthy, the speed result is truthy or an extra changed, and it receives exactly the two `_updateVoice`/`_updateSpeed` results |
| Settings.TruthyChangeNotifies | lib/backends/base.py:106-128 | a truthy voice or speed baseline replaced in the store by a different truthy value makes `_update` call `update` with a truthy argument taken from the fresh reads |
| Settings.FirstUpdateIsQuiet | lib/backends/base.py:106-137 | the first `_update` of a backend never calls `update` |
| Settings.UpdateSettles | lib/backends/base.py:106-137 | repeating `_update` on unchanged settings is quiet once the previous call re-read every extra |
| Settings.ChangeToFalsyIsSilent | lib/backends/base.py:110-119 | a change to an empty voice or a zero speed yields a falsy result that does not by itself trigger `update` |
| Settings.ExtrasChangeSeenOneCallLate | lib/backends/base.py:130-137 | two extras changed together are reported by two successive calls, because the loop exits at the first one; a third call is quiet |
| Settings.Available | lib/backends/base.py:146-149 | available iff the engine is available and not (broken and `disable_broken_backends` is truthy) |
| Settings.BrokenRefusedByDefault | lib/backends/base.py:148 | with the setting absent (default true) a broken backend is never available |
| SpeechBase.BaseStop | lib/backends/base.py:139-140 | `TTSBackendBase._stop` runs only the engine's stop hook |
| SpeechBase.BaseClose | lib/backends/base.py:142-144 | `TTSBackendBase._close` runs the given `_stop` events unchanged, then the engine's close hook last |
| SpeechBase.PauseEach | lib/backends/base.py:216-218 | after the first text: a 500 ms pause before each remaining text, twice as many items as texts |
| SpeechBase.Paced | lib/backends/base.py:213-218 | `sayList` queues 2n-1 items: texts at even positions in order, 500 ms pauses at odd positions |
| SpeechBase.BaseEvents | lib/backends/base.py:37-39 | each queued item becomes one `say` or one sleep, in order |
| SpeechBase.BaseSayList | lib/backends/base.py:29-39 | an empty list raises; otherwise 2n-1 calls: the first text with the caller's interrupt, then sleep 500 and `say(t)` without interrupt for each later text |
| SpeechQueue.Drain | lib/backends/base.py:200-206 | `_emptyQueue` removes every pending item and changes nothing else |
| SpeechQueue.Stop | lib/backends/base.py:223-225 | the queue is emptied and nothing else changes; the events are exactly the drain then the stop hook, preceded for a simple backend by `player.stop` (lines 302-304) |
| SpeechQueue.Close | lib/backends/base.py:238-241 | afterwards the backend is inactive with an empty queue; order: deactivate, (player.stop,) drain, stop hook, close hook, drain, (player.close) |
| SpeechQueue.Say | lib/backends/base.py:208-211 | inactive: unchanged; interrupt: the class's stop runs and the queue is exactly the new text; otherwise one text is appended at the tail; no other field changes |
| SpeechQueue.SayList | lib/backends/base.py:213-218 | ignores `active`; raises iff the list is empty, after any interrupt's stop; appends the paced items after the (possibly drained) queue |
| SpeechQueue.InsertPause | lib/backends/base.py:227-228 | `insertPause(ms)` puts one pause of `ms` at the tail of the queue without checking `active`, and changes nothing else |
| SpeechQueue.QueueBusy | lib/backends/base.py:220-221 | the threaded backend is idle only with an empty queue and no utterance in flight; a non-empty queue is always busy |
| SpeechQueue.IsSpeaking | lib/backends/base.py:220-221 | a threaded backend speaks iff its queue is busy; a simple one (lines 299-300) iff the engine speaks, the player plays or the queue is busy; not speaking means an empty queue and nothing in flight |
| SpeechQueue.ThreadedSayEffect | lib/backends/base.py:288-297 | a simple backend does nothing for empty text; WAVOUT calls getOutFile, runCommand, play in order; ENGINESPEAK only runCommandAndSpeak with the engine flag raised; the player is never touched while the engine speaks |
| SpeechQueue.WorkerStep | lib/backends/base.py:186-195 | no step once inactive or aborted; otherwise exactly the head item is removed; a pause only sleeps; text runs `threadedSay` with the speaking flag set during and cleared after; the engine-speaking flag is raised and cleared only around an ENGINESPEAK utterance (lines 295-297) and is otherwise unchanged |
| SpeechRun.RunToIdle | lib/backends/base.py:184-198 | an active worker empties its queue and stays active, and two observable states pass per item; an inactive one does nothing |
| SpeechRun.FifoOrder | lib/backends/base.py:186-195 | the worker's events are each queued item's events once, in queue order |
| SpeechRun.BusyUntilDrained | lib/backends/base.py:220-221 | `isSpeaking` holds at every state the run records (while each item is handled and after it) until the last queued utterance is done, and is false afterwards |
| SpeechRun.SimpleIdleAfterDrain | lib/backends/base.py:288-300 | a simple backend whose engine was not speaking stops reporting speaking once its worker drained the queue and its player is idle |
| SpeechRun.SimpleBusyIsSpeaking | lib/backends/base.py:299-300 | a simple backend reports speaking whenever its queue is busy, whatever the player and the engine flag say |
| SpeechRun.InterruptRestartsQueue | lib/backends/base.py:208-211 | after an interrupting `say` the worker handles only the new text |
| SpeechRun.SayRunsAfterPending | lib/backends/base.py:208-211 | a plain `say` is spoken after everything already queued |
| SpeechRun.InsertPauseRunsAfterPending | lib/backends/base.py:227-228 | an inserted pause is slept, for exactly its length, after everything already queued |
| SpeechRun.SayListRunsAfterPending | lib/backends/base.py:213-218 | a plain `sayList` is spoken after everything already queued, in its paced order |
| SpeechRun.SayListThenRun | lib/backends/base.py:213-218 | `sayList(["a","b","c"])` is handled as a, sleep 500, b, sleep 500, c, with the backend busy until c is done |
| SpeechRun.SayListAfterClose | lib/backends/base.py:208-218 | after `_close` no worker step happens and `say` is ignored, but `sayList` still queues 2n-1 items that are never consumed, so the backend stays busy |

## Left out

- SpeechRun.BusyUntilDrained: between the worker's `queue.get` (base.py:188) and its raising of the speaking flag (base.py:193), the last utterance has left the queue while the flag is still down, so `isSpeaking()` can briefly report False. The model's step dequeues and raises the flag together, so that window is not among the recorded states.
- Handlers.PlayToEnd, Facade.Play: only plays that return are modelled. The poll observations must end the loop, and on a handler closed before the play every poll sees it inactive. A poll that sees an active handler turned inactive stands for a concurrent `close()`, whose writes and kill are applied at that point.
- SpeechQueue.InsertPause: the pause length is a natural number. A negative `ms` would make the worker's `time.sleep` raise and end the worker thread.
- Threads: `threading.Thread`, `Queue` with its 0.5 s wait and `task_done`. The worker is a sequential step; a wait that times out is a step on an empty queue, and `xbmc.abortRequested` is a boolean input. Concurrent interleavings of callers and worker are not modelled.
- An exception raised inside `threadedSay` ends the worker thread in the source; the model has no failing engine calls.
- `util.LOG`, and the log line `setPlayer` writes when the player changes: logging only.
- `PlaySFXHandler` internals: the temp directory, `time.time()` file names, reading the wav header, the duration wait and its `Event`, and deleting files. What remains is the id `playSFX`, the stop rule, and `close` as one clean-up event. The time-stamped path is an input to `Facade.GetOutFile`. The built-in handler's `play` (`Handlers.SfxPlay`) takes whether the wav file exists as an input and is modelled from the caller's side, after the blocking call returns.
- `subprocess.call` / `Popen` / `poll` / `kill` / `terminate`. Probe outcomes are a function parameter. A process is `Process(args, running)`. A kill stops it. `Popen` never fails: a missing player binary, such as sox's `play` when only `sox --version` was probed (audio.py:116-117), raises OSError in the source but spawns in the model. A terminate only sends the signal; the process counts as running until `poll()` reports its exit. The poll observations of `play` are an input (`Handlers.PlayToEnd`), and an exit they report is `Handlers.ObserveExit`. An exit that `isPlaying()`'s own poll reports outside a play is the same `Handlers.ObserveExit`.
- `speedArg`'s float formatting. The speed argument is the exact product `SpeedValue(speed * multiplier)`; Python's float rounding and `str` are not modelled.
- `util.getSetting` storage and type conversion. The store is a map with per-call defaults. `Value` covers None, bool, int and str with Python truthiness and `True == 1`; floats are not modelled.
- Settings.ExtrasStopAtFirstChange, Settings.ExtrasNoChange, Settings.ExtrasSeenFresh, Settings.UpdateSettles, Settings.FirstUpdateIsQuiet: proved for extras declared under distinct names; the function itself handles duplicates as the source does. An extra whose name clashes with another attribute of the backend (such as `_voice`) is not modelled.
- The abstract methods `say`, `threadedSay`, `runCommand` and `runCommandAndSpeak` raise NotImplemented in the source. Engine behaviour is represented by trace events.
- The trivial defaults `voices()` (None), `TTSBackendBase.isSpeaking()` (None, unknown), `update()` (no-op) and `available()` (False). `_available` takes the engine's `available()` result as a parameter.
- `setMode`'s assertion and log line. The mode is two-valued here; the source treats every integer other than WAVOUT as ENGINESPEAK.
- `SimpleTTSBackendBase.setPlayer` / `setSpeed` only forward to the player; they are modelled at the facade (`Facade.SetPlayer`, `Facade.SetSpeed`).
- `texts.pop(0)` also removes the first text from the caller's own list; the model does not mutate its input.
- `ExternalPlayerHandler._deleteOutFile` is never called.
- `WavPlayer.setPlayer` drops the previous handler without closing it, as the source does. A process the old handler still owns is outside the model from then on.
- The `Simple` backend's `isSpeaking` takes the player's `isPlaying()` as the input `playerPlaying`. The backend record and the facade are separate models joined by the `PlayerStop`, `PlayerClose`, `GetOutFile` and `PlayerPlay` events.
- `LogOnlyTTSBackend` (a logger) and `main.py` (command-line dispatch into code outside this model) are not part of this model.

=== FILE: commands.dfy ===
/** Descriptors of the external command-line players (`CommandInfo` and
    `AdvancedCommandInfo` in lib/backends/audio.py), the construction of
    their argument vectors, and the Unix registry of four players. */
module Commands {
  import opened Wrappers

  /** One element of an argument vector. `Slot` is the `None` placeholder
      of a template. `SpeedValue` stands for the text `str(v)` of the
      scaled speed; how Python prints the float is not modelled. */
  datatype Arg = Word(text: string) | SpeedValue(value: real) | Slot

  /** An immutable player descriptor. `speed` is the speed template
      (`None` on the plain `CommandInfo`), `advanced` tells the two
      classes apart. */
  datatype Descriptor = Descriptor(
    id: string,
    name: string,
    probe: seq<string>,
    play: seq<Arg>,
    speed: Option<seq<Arg>>,
    multiplier: real,
    kill: bool,
    advanced: bool)

  /** `list.index(None)` raises ValueError when the template has no
      placeholder; `list.extend(None)` raises TypeError when an advanced
      descriptor has no speed template. */
  datatype ArgError = NoPlaceholder | NoSpeedTemplate

  /** `list.index(None)`: the position of the first placeholder. */
  function SlotIndex(xs: seq<Arg>): (k: nat)
    requires Slot in xs
    ensures k < |xs| && xs[k] == Slot
    ensures Slot !in xs[..k]
  {
    if xs[0] == Slot then 0
    else
      assert xs == [xs[0]] + xs[1..];
      var k := 1 + SlotIndex(xs[1..]);
      assert xs[..k] == [xs[0]] + xs[1..][..k - 1];
      k
  }

  /** `args[args.index(None)] = v` */
  function FillSlot(xs: seq<Arg>, v: Arg): (r: Result<seq<Arg>, ArgError>)
    ensures r.Err? <==> Slot !in xs
    ensures r.Ok? ==> |r.value| == |xs|
    ensures r.Ok? ==> r.value[SlotIndex(xs)] == v
    ensures r.Ok? ==> forall i :: 0 <= i < |xs| && i != SlotIndex(xs) ==> r.value[i] == xs[i]
  {
    if Slot in xs then Ok(xs[SlotIndex(xs) := v]) else Err(NoPlaceholder)
  }

  /** `speedArg`: the speed scaled by the descriptor's multiplier. */
  function SpeedArg(d: Descriptor, speed: int): (r: Arg)
    ensures r.SpeedValue? && r.value == speed as real * d.multiplier
    ensures d.multiplier == 1.0 ==> r.value == speed as real
    ensures speed == 0 ==> r.value == 0.0
  {
    SpeedValue(speed as real * d.multiplier)
  }

  /** `playArgs(outFile, speed)`, dispatched on the descriptor's class.
      The plain class ignores `speed`; the advanced class appends the
      speed template when `speed` is non-zero and fills the first
      placeholder left in the whole vector with the scaled speed. */
  function PlayArgs(d: Descriptor, outFile: string, speed: int): (r: Result<seq<Arg>, ArgError>)
    ensures Slot !in d.play ==> r == Err(NoPlaceholder)
    ensures (!d.advanced || speed == 0) && Slot in d.play ==>
              r.Ok? && |r.value| == |d.play| && r.value[SlotIndex(d.play)] == Word(outFile)
    ensures (!d.advanced || speed == 0) && r.Ok? ==>
              forall i :: 0 <= i < |d.play| && i != SlotIndex(d.play) ==> r.value[i] == d.play[i]
    ensures r.Ok? ==> |r.value| >= |d.play|
    ensures WellFormed(d) ==> r.Ok?
  {
    var base := FillSlot(d.play, Word(outFile));
    if base.Err? || !d.advanced || speed == 0 then base
    else if d.speed.None? then Err(NoSpeedTemplate)
    else FillSlot(base.value + d.speed.value, SpeedArg(d, speed))
  }

  /** A descriptor every call of `playArgs` succeeds on: exactly one
      placeholder in the play template, and for the advanced class a
      speed template with a placeholder. */
  predicate WellFormed(d: Descriptor)
  {
    && Slot in d.play
    && Slot !in d.play[SlotIndex(d.play) + 1..]
    && (d.advanced ==> d.speed.Some? && Slot in d.speed.value)
  }

  /** Filling a vector whose prefix has no placeholder fills the suffix. */
  lemma {:induction false} SlotIndexAfterPrefix(a: seq<Arg>, b: seq<Arg>)
    requires Slot !in a && Slot in b
    ensures Slot in a + b
    ensures SlotIndex(a + b) == |a| + SlotIndex(b)
  {
    var k := |a| + SlotIndex(b);
    assert (a + b)[k] == Slot;
    assert (a + b)[..k] == a + b[..SlotIndex(b)];
  }

  /** With a non-zero speed, an advanced well-formed descriptor yields the
      plain result followed by the speed template whose placeholder holds
      `speed * multiplier`. */
  lemma PlayArgsWithSpeed(d: Descriptor, outFile: string, speed: int)
    requires WellFormed(d) && d.advanced && speed != 0
    ensures PlayArgs(d, outFile, speed)
            == Ok(PlayArgs(d, outFile, 0).value
                  + d.speed.value[SlotIndex(d.speed.value) := SpeedValue(speed as real * d.multiplier)])
  {
    var k := SlotIndex(d.play);
    var args := d.play[k := Word(outFile)];
    assert args == d.play[..k] + [Word(outFile)] + d.play[k + 1..];
    assert Slot !in args;
    SlotIndexAfterPrefix(args, d.speed.value);
    var t := d.speed.value;
    var v := SpeedValue(speed as real * d.multiplier);
    assert FillSlot(d.play, Word(outFile)) == Ok(args);
    assert PlayArgs(d, outFile, 0) == Ok(args);
    assert FillSlot(args + t, v) == Ok((args + t)[|args| + SlotIndex(t) := v]);
    assert (args + t)[|args| + SlotIndex(t) := v] == args + t[SlotIndex(t) := v];
    assert SpeedArg(d, speed) == v;
    assert d.advanced && speed != 0 && d.speed.Some?;
    assert PlayArgs(d, outFile, speed) == FillSlot(args + t, v);
  }

  /** A well-formed descriptor never makes `playArgs` raise, and the
      result has the play template's length plus, for a non-zero speed on
      the advanced class, the speed template's length. */
  lemma PlayArgsTotal(d: Descriptor, outFile: string, speed: int)
    requires WellFormed(d)
    ensures PlayArgs(d, outFile, speed).Ok?
    ensures |PlayArgs(d, outFile, speed).value|
            == |d.play| + (if d.advanced && speed != 0 then |d.speed.value| else 0)
  {
  }

  const APlay := Descriptor("aplay", "aplay", ["aplay", "--version"],
                            [Word("aplay"), Word("-q"), Slot], None, 1.0, false, false)
  const PAPlay := Descriptor("paplay", "paplay", ["paplay", "--version"],
                             [Word("paplay"), Slot], None, 1.0, false, false)
  const Sox := Descriptor("sox", "SOX", ["sox", "--version"],
                          [Word("play"), Word("-q"), Slot],
                          Some([Word("tempo"), Word("-s"), Slot]), 0.01, true, true)
  const MPlayer := Descriptor("mplayer", "MPlayer", ["mplayer", "--help"],
                              [Word("mplayer"), Word("-really-quiet"), Slot],
                              Some([Word("-af"), Word("scaletempo"), Word("-speed"), Slot]), 0.01, false, true)

  /** `UnixExternalPlayerHandler.players`, in probing order. */
  const UnixPlayers: seq<Descriptor> := [APlay, PAPlay, Sox, MPlayer]

  /** The registry's shape: four players in the order aplay, paplay, sox,
      mplayer; distinct ids; every one well-formed; only sox and mplayer
      advanced, both with multiplier 0.01; only sox force-killed. */
  lemma UnixRegistryShape()
    ensures |UnixPlayers| == 4
    ensures UnixPlayers[0].id == "aplay" && UnixPlayers[1].id == "paplay"
    ensures UnixPlayers[2].id == "sox" && UnixPlayers[3].id == "mplayer"
    ensures forall i, j :: 0 <= i < j < |UnixPlayers| ==> UnixPlayers[i].id != UnixPlayers[j].id
    ensures forall d :: d in UnixPlayers ==> WellFormed(d)
    ensures forall d :: d in UnixPlayers ==> (d.advanced <==> d.id == "sox" || d.id == "mplayer")
    ensures forall d :: d in UnixPlayers && d.advanced ==> d.multiplier == 0.01
    ensures forall d :: d in UnixPlayers ==> (d.kill <==> d.id == "sox")
  {
  }

  /** The worked example: sox at speed 50 appends `tempo -s 0.5`; at speed
      0 no registry player gets a speed argument. */
  lemma SoxSpeedExample()
    ensures PlayArgs(Sox, "out.wav", 50)
            == Ok([Word("play"), Word("-q"), Word("out.wav"), Word("tempo"), Word("-s"), SpeedValue(0.5)])
    ensures forall d :: d in UnixPlayers ==> |PlayArgs(d, "out.wav", 0).value| == |d.play|
  {
    UnixRegistryShape();
    PlayArgsWithSpeed(Sox, "out.wav", 50);
    assert SlotIndex(Sox.play) == 2;
    assert SlotIndex(Sox.speed.value) == 2;
    assert PlayArgs(Sox, "out.wav", 0).value == [Word("play"), Word("-q"), Word("out.wav")];
    assert 50 as real * Sox.multiplier == 0.5;
    assert Sox.speed.value[2 := SpeedValue(0.5)] == [Word("tempo"), Word("-s"), SpeedValue(0.5)];
    assert Sox.speed.value[SlotIndex(Sox.speed.value) := SpeedValue(50 as real * Sox.multiplier)]
        == [Word("tempo"), Word("-s"), SpeedValue(0.5)];
    assert [Word("play"), Word("-q"), Word("out.wav")] + [Word("tempo"), Word("-s"), SpeedValue(0.5)]
        == [Word("play"), Word("-q"), Word("out.wav"), Word("tempo"), Word("-s"), SpeedValue(0.5)];
    forall d | d in UnixPlayers
      ensures |PlayArgs(d, "out.wav", 0).value| == |d.play|
    {
      PlayArgsTotal(d, "out.wav", 0);
    }
  }
}

=== FILE: facade.dfy ===
/** `WavPlayer` in lib/backends/audio.py: owns one playback handler,
    chooses it by a fallback chain, and forwards the playback operations
    to it. */
module Facade {
  import opened Wrappers
  import opened Commands
  import opened Handlers

  /** The two handler variants. */
  datatype Handler = Sfx(sfx: SfxHandler) | External(ext: ExternalHandler)

  /** The constructor of external handlers the player was given
      (`external_handler`): the registry it probes, the probe outcomes and
      its fixed output path. */
  datatype Factory = Factory(players: seq<Descriptor>, ok: Descriptor -> bool, outFile: string)

  /** What the host offers: stopSFX, and possibly an external factory. */
  datatype Host = Host(hasStopSfx: bool, factory: Option<Factory>)

  /** The facade. A handler is always present: the source's only null
      moment is inside the constructor, before `setPlayer` returns. */
  datatype WavPlayer = WavPlayer(handler: Handler, preferred: Option<string>, advanced: bool)

  /** `handler.player()` */
  function HandlerId(h: Handler): (r: Option<string>)
    ensures h.Sfx? ==> r == Some(SfxId)
    ensures h.External? ==> r == PlayerId(h.ext)
    ensures r.Some? ==> r.value != ""
  {
    match h
    case Sfx(_) => Some(SfxId)
    case External(e) => PlayerId(e)
  }

  /** A handler that can play: the built-in one always, an external one
      when it has selected a player. */
  predicate Usable(h: Handler)
  {
    h.Sfx? || h.ext.player.Some?
  }

  const FreshSfx := Sfx(SfxHandler("", false))

  function Build(f: Factory, preferred: Option<string>, advanced: bool): ExternalHandler
  {
    NewExternal(f.players, f.ok, f.outFile, preferred, advanced)
  }

  /** `useExternalPlayer`: an external handler with no preference, kept
      only if some player is available; otherwise the built-in one. */
  function UseExternal(host: Host, advanced: bool): (h: Handler)
    ensures Usable(h)
    ensures h.External? ==> host.factory.Some? && PlayerAvailable(h.ext)
  {
    if host.factory.Some? && PlayerAvailable(Build(host.factory.value, None, advanced)) then
      External(Build(host.factory.value, None, advanced))
    else FreshSfx
  }

  /** `initPlayer`: the built-in handler when the host can stop it,
      otherwise `useExternalPlayer`. */
  function InitHandler(host: Host, advanced: bool): (h: Handler)
    ensures host.hasStopSfx ==> h == FreshSfx
    ensures h.External? ==> !host.hasStopSfx && host.factory.Some? && PlayerAvailable(h.ext)
  {
    if host.hasStopSfx then FreshSfx else UseExternal(host, advanced)
  }

  /** An external handler built for `preferred` whose selection is that
      very id: the handler `setPlayer` adopts directly. */
  function Adoptable(host: Host, preferred: Option<string>, advanced: bool): (r: Option<ExternalHandler>)
    ensures r.Some? ==> Given(preferred) && host.factory.Some? && PlayerId(r.value) == preferred
  {
    if Given(preferred) && host.factory.Some? && PlayerId(Build(host.factory.value, preferred, advanced)) == preferred
    then Some(Build(host.factory.value, preferred, advanced))
    else None
  }

  /** The handler `setPlayer(preferred)` leaves behind, given the current
      one (None inside the constructor). */
  function Choose(current: Option<Handler>, host: Host, preferred: Option<string>, advanced: bool): (h: Handler)
    ensures current.Some? && preferred == HandlerId(current.value) ==> h == current.value
    ensures current.None? || Usable(current.value) ==> Usable(h)
    ensures h.External? && (current.None? || h != current.value) ==>
              host.factory.Some? && PlayerAvailable(h.ext)
  {
    if current.Some? && preferred == HandlerId(current.value) then current.value
    else
      var adopted := Adoptable(host, preferred, advanced);
      if adopted.Some? then
        var e := adopted.value;
        assert e.player.Some? && e.player.value in e.available;
        External(e)
      else InitHandler(host, advanced)
  }

  /** `WavPlayer(external_handler, preferred, advanced)` */
  function New(host: Host, preferred: Option<string>, advanced: bool): (w: WavPlayer)
    ensures Usable(w.handler)
    ensures w.preferred == preferred && w.advanced == advanced
  {
    WavPlayer(Choose(None, host, preferred, advanced), preferred, advanced)
  }

  /** `WavPlayer.setPlayer(preferred)` */
  function SetPlayer(w: WavPlayer, host: Host, preferred: Option<string>): (r: WavPlayer)
    ensures r.preferred == preferred && r.advanced == w.advanced
    ensures Usable(w.handler) ==> Usable(r.handler)
  {
    WavPlayer(Choose(Some(w.handler), host, preferred, w.advanced), preferred, w.advanced)
  }

  /** A preferred player that the host's external factory finds available
      is the one selected, unless the current handler already reports
      that id. */
  lemma PreferredAvailableIsAdopted(w: WavPlayer, host: Host, id: string)
    requires id != "" && host.factory.Some?
    requires exists p :: p in host.factory.value.players && host.factory.value.ok(p) && p.id == id
    ensures HandlerId(SetPlayer(w, host, Some(id)).handler) == Some(id)
  {
  }

  /** When the preferred id cannot be honoured, the fallback is the
      built-in handler on hosts with stopSFX, then an external handler with
      any available player, and the built-in handler as the last resort. */
  lemma FallbackOrder(w: WavPlayer, host: Host, preferred: Option<string>)
    requires preferred != HandlerId(w.handler)
    requires Adoptable(host, preferred, w.advanced).None?
    ensures var h := SetPlayer(w, host, preferred).handler;
            && (host.hasStopSfx ==> h == FreshSfx)
            && (!host.hasStopSfx && host.factory.Some?
                && (exists p :: p in host.factory.value.players && host.factory.value.ok(p))
                ==> h.External? && h.ext == Build(host.factory.value, None, w.advanced))
            && (!host.hasStopSfx
                && (host.factory.None?
                    || forall p :: p in host.factory.value.players ==> !host.factory.value.ok(p))
                ==> h == FreshSfx)
  {
  }

  /** Asking twice for the same player changes nothing the second time. */
  lemma SetPlayerIdempotent(w: WavPlayer, host: Host, preferred: Option<string>)
    ensures SetPlayer(SetPlayer(w, host, preferred), host, preferred) == SetPlayer(w, host, preferred)
  {
  }

  /** A backend constructed with the default `WavPlayer()` (no external
      factory, no preference) always plays through the built-in handler. */
  lemma DefaultPlayerIsBuiltin(hasStopSfx: bool)
    ensures New(Host(hasStopSfx, None), None, false).handler == FreshSfx
  {
  }

  /** The `advanced` flag takes effect: without stopSFX and without a
      preference, a factory whose registry has an advanced player that
      probes ok gives an external handler that selected an advanced
      player. */
  lemma AdvancedPrefersAdvanced(host: Host, p: Descriptor)
    requires !host.hasStopSfx && host.factory.Some?
    requires p in host.factory.value.players && host.factory.value.ok(p) && p.advanced
    ensures New(host, None, true).handler.External?
    ensures New(host, None, true).handler.ext.player.Some?
    ensures New(host, None, true).handler.ext.player.value.advanced
  {
  }

  // ---------------------------------------------------------------------
  // Delegation

  /** `setSpeed`: the built-in handler ignores it. */
  function SetSpeed(w: WavPlayer, speed: int): (r: WavPlayer)
    ensures w.handler.Sfx? ==> r == w
    ensures w.handler.External? ==> r.handler.External? && r.handler.ext.speed == speed
    ensures w.handler.External? ==> r.handler.ext.(speed := w.handler.ext.speed) == w.handler.ext
    ensures r.(handler := w.handler) == w
  {
    match w.handler
    case Sfx(_) => w
    case External(e) => w.(handler := External(Handlers.SetSpeed(e, speed)))
  }

  /** `getOutFile`: the built-in handler moves to the fresh time-stamped
      path the host supplies; the external handler reuses its fixed path. */
  function GetOutFile(w: WavPlayer, stamped: string): (r: (WavPlayer, string))
    ensures w.handler.External? ==> r == (w, w.handler.ext.outFile)
    ensures w.handler.Sfx? ==> r.1 == stamped && r.0.handler == Sfx(w.handler.sfx.(outFile := stamped))
    ensures r.0.(handler := w.handler) == w
  {
    match w.handler
    case Sfx(s) => (w.(handler := Sfx(s.(outFile := stamped))), stamped)
    case External(e) => (w, e.outFile)
  }

  /** `isPlaying` */
  predicate IsPlaying(w: WavPlayer)
    ensures w.handler.Sfx? ==> (IsPlaying(w) <==> w.handler.sfx.playing)
    ensures w.handler.External? ==> (IsPlaying(w) <==> Handlers.IsPlaying(w.handler.ext))
  {
    match w.handler
    case Sfx(s) => s.playing
    case External(e) => Handlers.IsPlaying(e)
  }

  /** `play`: forwarded to the handler. The built-in handler needs its
      current wav file to exist; the external one spawns its player and
      polls it. Only the handler's playing state changes, and for the
      external handler the active flag a concurrent `close` clears. */
  function Play(w: WavPlayer, wavExists: bool, polls: seq<Poll>)
    : (r: Result<(WavPlayer, seq<AudioEvent>), PlayError>)
    requires w.handler.External? ==> PollsFor(w.handler.ext, polls)
    ensures w.handler.External? ==> (r.Err? <==> Handlers.Play(w.handler.ext).Err?)
    ensures r.Ok? ==> r.value.0.(handler := w.handler) == w && HandlerId(r.value.0.handler) == HandlerId(w.handler)
    ensures w.handler.Sfx? ==> r.Ok? && r.value.1 == SfxPlay(w.handler.sfx, wavExists).1
    ensures w.handler.Sfx? ==> r.value.0.handler.Sfx? && r.value.0.handler.sfx.outFile == w.handler.sfx.outFile
    ensures w.handler.Sfx? && !wavExists ==> r == Ok((w, []))
    ensures w.handler.Sfx? && wavExists ==> !IsPlaying(r.value.0)
    ensures w.handler.External? && r.Ok? ==>
              && r.value.0.handler.External?
              && r.value.0.handler.ext.(process := w.handler.ext.process, active := w.handler.ext.active)
                 == w.handler.ext
              && r.value.0.handler.ext.process.Some?
              && r.value.0.handler.ext.process.value.args
                 == PlayArgs(w.handler.ext.player.value, w.handler.ext.outFile, w.handler.ext.speed).value
              && r.value.1 == PlayToEnd(w.handler.ext, polls).value.events
              && r.value.1[0] == Spawn(r.value.0.handler.ext.process.value.args)
    ensures w.handler.External? && r.Ok? ==>
              (IsPlaying(r.value.0) <==> !w.handler.ext.active && !LastPoll(polls).exited)
  {
    match w.handler
    case Sfx(s) =>
      var p := SfxPlay(s, wavExists);
      Ok((w.(handler := Sfx(p.0)), p.1))
    case External(e) =>
      match PlayToEnd(e, polls)
      case Err(err) => Err(err)
      case Ok(p) => Ok((w.(handler := External(p.handler)), p.events))
  }

  /** `stop`: on the built-in handler effective only with stopSFX. */
  function Stop(w: WavPlayer, host: Host): (r: (WavPlayer, seq<AudioEvent>))
    ensures w.handler.Sfx? ==> r.0 == w && (|r.1| == 0 <==> !host.hasStopSfx)
    ensures w.handler.Sfx? ==> r.1 == SfxStop(host.hasStopSfx)
    ensures w.handler.External? ==> r.0.handler.External? && r.1 == Handlers.Stop(w.handler.ext).events
    ensures w.handler.External? ==> r.0.handler.ext.(process := w.handler.ext.process) == w.handler.ext
    ensures w.handler.External? && r.1 == [Kill] ==> !IsPlaying(r.0)
    ensures w.handler.External? && r.1 != [Kill] ==> r.0 == w
    ensures r.0.(handler := w.handler) == w
  {
    match w.handler
    case Sfx(_) => (w, SfxStop(host.hasStopSfx))
    case External(e) =>
      var s := Handlers.Stop(e);
      (w.(handler := External(s.handler)), s.events)
  }

  /** `close` */
  function Close(w: WavPlayer): (r: (WavPlayer, seq<AudioEvent>))
    ensures w.handler.External? ==> !IsPlaying(r.0) && r.0.handler.External? && !r.0.handler.ext.active
    ensures w.handler.External? ==> r.1 == (if w.handler.ext.process.Some? then [Kill] else [])
    ensures w.handler.External? ==>
              r.0.handler.ext.(active := w.handler.ext.active, process := w.handler.ext.process) == w.handler.ext
    ensures r.0.(handler := w.handler) == w
    ensures w.handler.Sfx? ==> r == (w, [ClearTempDir])
  {
    match w.handler
    case Sfx(_) => (w, SfxClose())
    case External(e) =>
      var c := Handlers.Close(e);
      (w.(handler := External(c.handler)), c.events)
  }

  /** Closing the facade twice leaves it as one close did. */
  lemma CloseTwice(w: WavPlayer)
    ensures Close(Close(w).0).0 == Close(w).0
  {
  }
}

=== FILE: handlers.dfy ===
/** The two playback handlers of lib/backends/audio.py: the built-in
    `PlaySFXHandler`, reduced to its identity and its stop rule, and the
    `ExternalPlayerHandler`, which probes the registry, selects a player
    and owns at most one player process. */
module Handlers {
  import opened Wrappers
  import opened Commands

  /** What a handler asks of its environment. */
  datatype AudioEvent =
    | Spawn(args: seq<Arg>)   // subprocess.Popen of a player
    | PlaySfx(path: string)   // the host's playSFX of a wav file
    | Kill                    // Popen.kill
    | Terminate               // Popen.terminate
    | WakeWait                // Event.set, ending a built-in play's wait
    | StopSfx                 // the host's stopSFX
    | ClearTempDir            // removal of the built-in handler's wav files

  // ---------------------------------------------------------------------
  // Built-in handler

  /** The built-in handler: the path of its current wav file and the
      flag its play sets for the length of the clip. */
  datatype SfxHandler = SfxHandler(outFile: string, playing: bool)

  const SfxId := "playSFX"

  /** `PlaySFXHandler.stop`: effective only where the host has stopSFX;
      elsewhere the clip simply plays out. */
  function SfxStop(hasStopSfx: bool): (events: seq<AudioEvent>)
    ensures hasStopSfx <==> |events| > 0
    ensures hasStopSfx ==> WakeWait in events && StopSfx in events && ClearTempDir !in events
    ensures Kill !in events && Terminate !in events
  {
    if hasStopSfx then [WakeWait, StopSfx] else []
  }

  /** `PlaySFXHandler.play`, which blocks for the clip's length: a missing
      wav file is only logged; otherwise the host plays the current file
      and the playing flag, raised for the clip, is down again when the
      call returns. */
  function SfxPlay(s: SfxHandler, wavExists: bool): (r: (SfxHandler, seq<AudioEvent>))
    ensures !wavExists ==> r == (s, [])
    ensures wavExists ==> r.1 == [PlaySfx(s.outFile)] && !r.0.playing && r.0.outFile == s.outFile
  {
    if !wavExists then (s, [])
    else (s.(playing := false), [PlaySfx(s.outFile)])
  }

  /** `PlaySFXHandler.close`: clears the wav directory. */
  function SfxClose(): (events: seq<AudioEvent>)
    ensures ClearTempDir in events
    ensures Kill !in events && Terminate !in events && StopSfx !in events
  {
    [ClearTempDir]
  }

  // ---------------------------------------------------------------------
  // External handler

  /** A spawned player process; `running` is what `poll() == None` reports. */
  datatype Process = Process(args: seq<Arg>, running: bool)

  /** The external handler's state: the probed players, whether any of
      them is advanced, the selected player (`_player`), the process of
      the last play, the speed and the active flag. */
  datatype ExternalHandler = ExternalHandler(
    available: seq<Descriptor>,
    hasAdvanced: bool,
    player: Option<Descriptor>,
    process: Option<Process>,
    speed: int,
    active: bool,
    outFile: string)

  /** The result of probing: the players whose probe did not raise, and
      whether one of them is advanced. */
  datatype Probed = Probed(available: seq<Descriptor>, hasAdvanced: bool)

  /** `xs` can be obtained from `ys` by deleting elements. */
  ghost predicate IsSubsequence<T>(xs: seq<T>, ys: seq<T>)
    decreases |ys|
  {
    |xs| == 0
    || (|ys| > 0 && ((xs[0] == ys[0] && IsSubsequence(xs[1..], ys[1..])) || IsSubsequence(xs, ys[1..])))
  }

  /** `getAvailablePlayers`: probes each registry entry in order; `ok(p)`
      says the probe command of `p` did not raise. */
  function ProbePlayers(players: seq<Descriptor>, ok: Descriptor -> bool): (r: Probed)
    ensures forall p :: p in r.available <==> p in players && ok(p)
    ensures IsSubsequence(r.available, players)
    ensures r.hasAdvanced <==> exists p :: p in r.available && p.advanced
  {
    if |players| == 0 then Probed([], false)
    else
      var rest := ProbePlayers(players[1..], ok);
      var p := players[0];
      assert players == [p] + players[1..];
      if ok(p) then
        assert ([p] + rest.available)[1..] == rest.available;
        Probed([p] + rest.available, p.advanced || rest.hasAdvanced)
      else rest
  }

  /** `getCommandInfoByID`: the first available descriptor with that id. */
  function FindById(available: seq<Descriptor>, id: string): (r: Option<Descriptor>)
    ensures r.None? <==> forall p :: p in available ==> p.id != id
    ensures r.Some? ==> exists k :: 0 <= k < |available| && available[k] == r.value
                          && r.value.id == id
                          && forall j :: 0 <= j < k ==> available[j].id != id
  {
    if |available| == 0 then None
    else if available[0].id == id then Some(available[0])
    else
      var r := FindById(available[1..], id);
      assert available == [available[0]] + available[1..];
      if r.Some? then
        var k :| 0 <= k < |available[1..]| && available[1..][k] == r.value
                 && r.value.id == id && forall j :: 0 <= j < k ==> available[1..][j].id != id;
        assert available[k + 1] == r.value;
        r
      else r
  }

  /** The loop of `setPlayer` that looks for an advanced player. */
  function FirstAdvanced(available: seq<Descriptor>): (r: Option<Descriptor>)
    ensures r.None? <==> forall p :: p in available ==> !p.advanced
    ensures r.Some? ==> exists k :: 0 <= k < |available| && available[k] == r.value
                          && r.value.advanced
                          && forall j :: 0 <= j < k ==> !available[j].advanced
  {
    if |available| == 0 then None
    else if available[0].advanced then Some(available[0])
    else
      var r := FirstAdvanced(available[1..]);
      assert available == [available[0]] + available[1..];
      if r.Some? then
        var k :| 0 <= k < |available[1..]| && available[1..][k] == r.value
                 && r.value.advanced && forall j :: 0 <= j < k ==> !available[1..][j].advanced;
        assert available[k + 1] == r.value;
        r
      else r
  }

  /** Python truthiness of an optional string. */
  predicate Given(preferred: Option<string>)
  {
    preferred.Some? && preferred.value != ""
  }

  /** `ExternalPlayerHandler.setPlayer(preferred, advanced)` applied to the
      previous choice `previous`. */
  function SelectPlayer(previous: Option<Descriptor>, available: seq<Descriptor>, hasAdvanced: bool,
                        preferred: Option<string>, advanced: bool): (r: Option<Descriptor>)
    ensures Given(preferred) && FindById(available, preferred.value).Some? ==>
              r.Some? && r.value in available && r.value.id == preferred.value
    ensures (hasAdvanced <==> exists p :: p in available && p.advanced) ==>
              (r.None? <==> |available| == 0) && (r.Some? ==> r.value in available)
  {
    var found := if Given(preferred) then FindById(available, preferred.value) else None;
    if found.Some? then found
    else if advanced && hasAdvanced then
      match FirstAdvanced(available)
      case Some(p) => Some(p)
      case None => previous
    else if |available| > 0 then Some(available[0])
    else None
  }

  /** The priority order of `setPlayer` on a consistently probed handler:
      the preferred id if available, else (when asked for) the first
      advanced player, else the first available player. */
  lemma SelectPriority(previous: Option<Descriptor>, available: seq<Descriptor>, hasAdvanced: bool,
                       preferred: Option<string>, advanced: bool)
    requires hasAdvanced <==> exists p :: p in available && p.advanced
    requires !(Given(preferred) && exists p :: p in available && p.id == preferred.value)
    ensures var r := SelectPlayer(previous, available, hasAdvanced, preferred, advanced);
            && (advanced && hasAdvanced ==>
                  r.Some? && r.value.advanced
                  && exists k :: 0 <= k < |available| && available[k] == r.value
                                 && forall j :: 0 <= j < k ==> !available[j].advanced)
            && (!(advanced && hasAdvanced) && |available| > 0 ==> r == Some(available[0]))
  {
  }

  /** `ExternalPlayerHandler.__init__`: probe, then select. */
  function NewExternal(players: seq<Descriptor>, ok: Descriptor -> bool, outFile: string,
                       preferred: Option<string>, advanced: bool): (h: ExternalHandler)
    ensures h.active && h.process.None? && h.speed == 0 && h.outFile == outFile
    ensures forall p :: p in h.available <==> p in players && ok(p)
    ensures h.player.None? <==> |h.available| == 0
    ensures h.player.Some? ==> h.player.value in h.available
    ensures IsSubsequence(h.available, players)
    ensures h.hasAdvanced <==> exists p :: p in h.available && p.advanced
    ensures h.player == SelectPlayer(None, h.available, h.hasAdvanced, preferred, advanced)
  {
    var probed := ProbePlayers(players, ok);
    ExternalHandler(probed.available, probed.hasAdvanced,
                    SelectPlayer(None, probed.available, probed.hasAdvanced, preferred, advanced),
                    None, 0, true, outFile)
  }

  /** `player()`: the selected id, or None. */
  function PlayerId(h: ExternalHandler): (r: Option<string>)
    ensures r.Some? <==> h.player.Some? && h.player.value.id != ""
    ensures r.Some? ==> r.value == h.player.value.id
  {
    if h.player.Some? && h.player.value.id != "" then Some(h.player.value.id) else None
  }

  /** `playerAvailable()` */
  predicate PlayerAvailable(h: ExternalHandler)
    ensures PlayerAvailable(h) <==> exists p :: p in h.available
  {
    assert |h.available| > 0 ==> h.available[0] in h.available;
    |h.available| > 0
  }

  /** `isPlaying()`: a process exists and has not exited. */
  predicate IsPlaying(h: ExternalHandler)
    ensures IsPlaying(h) ==> h.process.Some?
    ensures h.process.Some? ==> (IsPlaying(h) <==> h.process.value.running)
  {
    h.process.Some? && h.process.value.running
  }

  /** A handler together with the events one of its operations caused. */
  datatype Handled = Handled(handler: ExternalHandler, events: seq<AudioEvent>)

  /** Why a play raises: no player was selected (`None.playArgs`), or the
      descriptor's templates are malformed. */
  datatype PlayError = NoPlayer | BadTemplate(e: ArgError)

  /** `play()` up to the spawn: builds the argument vector from the
      selected player, the fixed output path and the speed. The poll loop
      that follows is `PollWaits`. */
  function Play(h: ExternalHandler): (r: Result<Handled, PlayError>)
    ensures h.player.None? ==> r == Err(NoPlayer)
    ensures h.player.Some? && WellFormed(h.player.value) ==>
              && r.Ok? && IsPlaying(r.value.handler)
              && r.value.events == [Spawn(r.value.handler.process.value.args)]
              && r.value.handler.process.value.args == PlayArgs(h.player.value, h.outFile, h.speed).value
              && r.value.handler.(process := h.process) == h
  {
    match h.player
    case None => Err(NoPlayer)
    case Some(d) =>
      match PlayArgs(d, h.outFile, h.speed)
      case Err(e) => Err(BadTemplate(e))
      case Ok(args) =>
        Ok(Handled(h.(process := Some(Process(args, true))), [Spawn(args)]))
  }

  /** One check of the poll loop: has the process exited, is the handler
      still active. */
  datatype Poll = Poll(exited: bool, active: bool)

  const PollIntervalMs := 10

  /** The number of `sleep(10)` waits `play` makes for a series of poll
      observations: it waits while the process runs and the handler is
      active, and leaves at the first observation where either fails. */
  function PollWaits(polls: seq<Poll>): (n: nat)
    ensures n <= |polls|
    ensures forall i :: 0 <= i < n ==> !polls[i].exited && polls[i].active
    ensures n < |polls| ==> polls[n].exited || !polls[n].active
  {
    if |polls| == 0 || polls[0].exited || !polls[0].active then 0
    else 1 + PollWaits(polls[1..])
  }

  /** What `poll()` reports once the process has exited: `isPlaying()`
      turns false, whether the process ran out, was terminated or was
      killed. */
  function ObserveExit(h: ExternalHandler): (r: ExternalHandler)
    ensures !IsPlaying(r)
    ensures r.(process := h.process) == h
    ensures h.process.None? <==> r.process.None?
    ensures h.process.Some? ==> r.process.value.args == h.process.value.args
  {
    match h.process
    case None => h
    case Some(p) => h.(process := Some(p.(running := false)))
  }

  /** A whole `play()`: the spawn, then the poll loop over the given poll
      observations, with the events and the time it slept. */
  datatype Played = Played(handler: ExternalHandler, events: seq<AudioEvent>, sleptMs: nat)

  /** Poll observations that can occur during a `play()` of `h`: the loop
      leaves within them, and a handler closed before the play is seen
      closed at every poll (nothing makes it active again). */
  predicate PollsFor(h: ExternalHandler, polls: seq<Poll>)
  {
    && PollWaits(polls) < |polls|
    && (!h.active ==> forall i :: 0 <= i < |polls| ==> !polls[i].active)
  }

  /** The observation at which the poll loop leaves. */
  function LastPoll(polls: seq<Poll>): (p: Poll)
    requires PollWaits(polls) < |polls|
    ensures p.exited || !p.active
  {
    polls[PollWaits(polls)]
  }

  /** `play()` to its return. An exit the loop sees is observed. A poll
      that sees an active handler turned inactive is a `close()` that ran
      meanwhile; its writes and its kill are part of the outcome. Only a
      handler closed before the play can return with its process still
      playing. */
  function PlayToEnd(h: ExternalHandler, polls: seq<Poll>): (r: Result<Played, PlayError>)
    requires PollsFor(h, polls)
    ensures r.Err? <==> Play(h).Err?
    ensures r.Err? ==> r.error == Play(h).error
    ensures r.Ok? ==> && r.value.sleptMs == PollIntervalMs * PollWaits(polls)
                      && r.value.handler.(process := h.process, active := h.active) == h
                      && r.value.handler.process.Some?
                      && r.value.handler.process.value.args == Play(h).value.handler.process.value.args
    ensures r.Ok? ==> (r.value.handler.active <==> h.active && LastPoll(polls).active)
    ensures r.Ok? ==> r.value.events == Play(h).value.events
                                        + (if h.active && !LastPoll(polls).active then [Kill] else [])
    ensures r.Ok? ==> (IsPlaying(r.value.handler) <==> !h.active && !LastPoll(polls).exited)
  {
    match Play(h)
    case Err(e) => Err(e)
    case Ok(p) =>
      var last := LastPoll(polls);
      var seen := if last.exited then ObserveExit(p.handler) else p.handler;
      var slept := PollIntervalMs * PollWaits(polls);
      if h.active && !last.active then
        var c := Close(seen);
        Ok(Played(c.handler, p.events + c.events, slept))
      else Ok(Played(seen, p.events, slept))
  }

  /** A process that exits while the handler is still active ends the
      play at that poll: the loop slept once per earlier poll, nothing is
      playing afterwards, and the handler is still active. */
  lemma ExitEndsPlay(h: ExternalHandler, polls: seq<Poll>, i: nat)
    requires Play(h).Ok? && h.active
    requires i < |polls| && polls[i].exited && polls[i].active
    requires forall j :: 0 <= j < i ==> !polls[j].exited && polls[j].active
    ensures PollsFor(h, polls)
    ensures PlayToEnd(h, polls).Ok?
    ensures PlayToEnd(h, polls).value.sleptMs == PollIntervalMs * i
    ensures !IsPlaying(PlayToEnd(h, polls).value.handler) && PlayToEnd(h, polls).value.handler.active
    ensures PlayToEnd(h, polls).value.events == Play(h).value.events
  {
  }

  /** A `close()` during the play ends it at the next poll: the process
      is killed and the handler is left inactive. */
  lemma CloseEndsPlay(h: ExternalHandler, polls: seq<Poll>, i: nat)
    requires Play(h).Ok? && h.active
    requires i < |polls| && !polls[i].exited && !polls[i].active
    requires forall j :: 0 <= j < i ==> !polls[j].exited && polls[j].active
    ensures PollsFor(h, polls)
    ensures PlayToEnd(h, polls).Ok?
    ensures PlayToEnd(h, polls).value.sleptMs == PollIntervalMs * i
    ensures !IsPlaying(PlayToEnd(h, polls).value.handler) && !PlayToEnd(h, polls).value.handler.active
    ensures PlayToEnd(h, polls).value.events == Play(h).value.events + [Kill]
  {
  }

  /** A play on a handler that is already closed returns at once, and the
      process it spawned plays on unless the first poll saw it exit. */
  lemma ClosedHandlerPlaysUnwatched(h: ExternalHandler, polls: seq<Poll>)
    requires Play(h).Ok? && !h.active && PollsFor(h, polls)
    ensures PlayToEnd(h, polls).Ok?
    ensures PlayToEnd(h, polls).value.sleptMs == 0
    ensures IsPlaying(PlayToEnd(h, polls).value.handler) <==> !polls[0].exited
  {
  }

  /** `stop()`: nothing without a process; otherwise kill when the
      selected descriptor says so, else terminate. A missing player makes
      the source raise inside its `try`, which is swallowed. */
  function Stop(h: ExternalHandler): (r: Handled)
    ensures h.process.None? ==> r == Handled(h, [])
    ensures r.events == [Kill] <==> h.process.Some? && h.player.Some? && h.player.value.kill
    ensures r.events == [Terminate] <==> h.process.Some? && h.player.Some? && !h.player.value.kill
    ensures |r.events| <= 1
    ensures r.events == [Kill] ==> !IsPlaying(r.handler)
    ensures r.events != [Kill] ==> r.handler == h
    ensures r.handler.(process := h.process) == h
  {
    match h.process
    case None => Handled(h, [])
    case Some(p) =>
      match h.player
      case None => Handled(h, [])
      case Some(d) =>
        if d.kill then Handled(h.(process := Some(p.(running := false))), [Kill])
        else Handled(h, [Terminate])
  }

  /** `close()`: deactivates (so a play's poll loop exits) and kills any
      process. */
  function Close(h: ExternalHandler): (r: Handled)
    ensures !r.handler.active && !IsPlaying(r.handler)
    ensures r.events == (if h.process.Some? then [Kill] else [])
    ensures r.handler.(active := h.active, process := h.process) == h
  {
    var off := h.(active := false);
    match h.process
    case None => Handled(off, [])
    case Some(p) => Handled(off.(process := Some(p.(running := false))), [Kill])
  }

  /** Closing twice is harmless: the second close changes nothing and at
      most repeats the kill of a process that is already gone. */
  lemma CloseIdempotent(h: ExternalHandler)
    ensures Close(Close(h).handler).handler == Close(h).handler
    ensures Close(Close(h).handler).events == Close(h).events
  {
  }

  /** Once the handler is closed, a play in progress stops waiting at the
      first poll that sees it inactive. */
  lemma ClosedHandlerEndsPolling(polls: seq<Poll>, i: nat)
    requires i < |polls| && !polls[i].active
    ensures PollWaits(polls) <= i
  {
  }

  /** `setSpeed(speed)`: remembered and used by the next play. */
  function SetSpeed(h: ExternalHandler, speed: int): (r: ExternalHandler)
    ensures r.speed == speed && r.(speed := h.speed) == h
  {
    h.(speed := speed)
  }
}

=== FILE: settings.dfy ===
/** Settings-change detection (`_update`, `_updateVoice`, `_updateSpeed`,
    `_updateExtras`) and the broken-backend gate (`_available`) of
    `TTSBackendBase` in lib/backends/base.py. */
module Settings {
  import opened Wrappers

  /** A stored setting as Python sees it. */
  datatype Value = PyNone | Bool(b: bool) | Int(i: int) | Str(s: string)

  /** Python truthiness. */
  predicate Truthy(v: Value)
  {
    match v
    case PyNone => false
    case Bool(b) => b
    case Int(i) => i != 0
    case Str(s) => s != ""
  }

  /** Booleans compare as the integers 0 and 1. */
  function Numeric(v: Value): Option<int>
  {
    match v
    case Bool(b) => Some(if b then 1 else 0)
    case Int(i) => Some(i)
    case _ => None
  }

  /** Python `==` on setting values. */
  predicate PyEq(a: Value, b: Value)
  {
    if Numeric(a).Some? && Numeric(b).Some? then Numeric(a) == Numeric(b) else a == b
  }

  /** The settings storage, keyed `<name>.<provider>`. */
  type Store = map<string, Value>

  /** `util.getSetting(key, default)` */
  function GetSetting(store: Store, key: string, default: Value): Value
  {
    if key in store then store[key] else default
  }

  function Key(name: string, provider: string): string
  {
    name + "." + provider
  }

  /** `userVoice()` reads `voice.<provider>`, default the empty string. */
  function ReadVoice(store: Store, provider: string): (r: Value)
    ensures Key("voice", provider) in store ==> r == store[Key("voice", provider)]
    ensures Key("voice", provider) !in store ==> r == Str("") && !Truthy(r)
  {
    GetSetting(store, Key("voice", provider), Str(""))
  }

  /** `userSpeed()` reads `speed.<provider>`, default 0. */
  function ReadSpeed(store: Store, provider: string): (r: Value)
    ensures Key("speed", provider) in store ==> r == store[Key("speed", provider)]
    ensures Key("speed", provider) !in store ==> r == Int(0) && !Truthy(r)
  {
    GetSetting(store, Key("speed", provider), Int(0))
  }

  /** A declared extra setting and its default. */
  datatype Extra = Extra(name: string, default: Value)

  /** `userExtra(extra, default)` */
  function ReadExtra(store: Store, provider: string, e: Extra): (r: Value)
    ensures Key(e.name, provider) in store ==> r == store[Key(e.name, provider)]
    ensures Key(e.name, provider) !in store ==> r == e.default
  {
    GetSetting(store, Key(e.name, provider), e.default)
  }

  /** The values a backend cached from its last reads: `_voice` and
      `_speed` (None while the attribute does not exist yet) and one
      attribute per extra. */
  datatype Cache = Cache(voice: Option<Value>, speed: Option<Value>, extras: map<string, Value>)

  /** A backend that never read its settings. */
  const NoCache := Cache(None, None, map[])

  /** `hasattr(self, attr) and getattr(self, attr) or None`: a falsy cached
      value counts as no baseline. */
  function Baseline(cached: Option<Value>): Value
  {
    if cached.Some? && Truthy(cached.value) then cached.value else PyNone
  }

  /** The result of `_updateVoice` / `_updateSpeed`, given the cached value
      and the freshly read one (which becomes the new cached value). */
  function Changed(cached: Option<Value>, latest: Value): (r: Value)
    ensures r == PyNone || r == latest
    ensures r != PyNone <==>
              cached.Some? && Truthy(cached.value) && !PyEq(latest, cached.value) && latest != PyNone
    ensures cached.None? ==> r == PyNone
  {
    var prior := Baseline(cached);
    if prior == PyNone then PyNone
    else if PyEq(latest, prior) then PyNone
    else latest
  }

  /** An attribute lookup with `None` for a missing attribute. */
  function ExtraBaseline(cache: map<string, Value>, name: string): Value
  {
    if name in cache then cache[name] else PyNone
  }

  /** The map entry for `n` is the same in both maps. */
  predicate Untouched(c1: map<string, Value>, c2: map<string, Value>, n: string)
  {
    (n in c1 <==> n in c2) && (n in c1 ==> c1[n] == c2[n])
  }

  datatype ExtrasResult = ExtrasResult(changed: bool, cache: map<string, Value>)

  /** `_updateExtras`: re-reads the extras in order and stops at the first
      one whose previous non-None value differs from the new read. */
  function UpdateExtras(extras: seq<Extra>, cache: map<string, Value>, store: Store, provider: string)
    : (r: ExtrasResult)
    ensures |extras| == 0 ==> r == ExtrasResult(false, cache)
    ensures r.changed ==> |extras| > 0
    ensures !r.changed ==> forall k :: 0 <= k < |extras| ==> extras[k].name in r.cache
    ensures forall n :: (forall k :: 0 <= k < |extras| ==> extras[k].name != n) ==> Untouched(r.cache, cache, n)
  {
    if |extras| == 0 then ExtrasResult(false, cache)
    else
      var e := extras[0];
      var prior := ExtraBaseline(cache, e.name);
      var got := ReadExtra(store, provider, e);
      var c := cache[e.name := got];
      if prior != PyNone && !PyEq(got, prior) then ExtrasResult(true, c)
      else
        var tail := extras[1..];
        var r := UpdateExtras(tail, c, store, provider);
        assert forall k :: 1 <= k < |extras| ==> extras[k] == tail[k - 1];
        assert !r.changed && (forall k :: 0 <= k < |tail| ==> tail[k].name != e.name) ==>
                 Untouched(r.cache, c, e.name);
        assert forall n :: (forall k :: 0 <= k < |extras| ==> extras[k].name != n) ==> Untouched(r.cache, cache, n) by {
          forall n | forall k :: 0 <= k < |extras| ==> extras[k].name != n
            ensures Untouched(r.cache, cache, n)
          {
            assert extras[0].name != n;
            assert Untouched(r.cache, c, n);
          }
        }
        r
  }

  /** Extras are declared under distinct names. */
  predicate DistinctNames(extras: seq<Extra>)
  {
    forall i, j :: 0 <= i < j < |extras| ==> extras[i].name != extras[j].name
  }

  /** The extra has a previous non-None value and the new read differs. */
  predicate Differs(cache: map<string, Value>, store: Store, provider: string, e: Extra)
  {
    ExtraBaseline(cache, e.name) != PyNone && !PyEq(ReadExtra(store, provider, e), ExtraBaseline(cache, e.name))
  }

  /** When the `k`-th extra is the first that changed, `_updateExtras`
      reports a change, has refreshed extras 0..k, and has not re-read
      any extra after it. */
  lemma {:induction false} ExtrasStopAtFirstChange(extras: seq<Extra>, cache: map<string, Value>,
                                                   store: Store, provider: string, k: nat)
    requires DistinctNames(extras) && k < |extras|
    requires Differs(cache, store, provider, extras[k])
    requires forall j :: 0 <= j < k ==> !Differs(cache, store, provider, extras[j])
    ensures var r := UpdateExtras(extras, cache, store, provider);
            && r.changed
            && (forall j :: 0 <= j <= k ==>
                  extras[j].name in r.cache && r.cache[extras[j].name] == ReadExtra(store, provider, extras[j]))
            && (forall j :: k < j < |extras| ==> Untouched(r.cache, cache, extras[j].name))
  {
    var e := extras[0];
    var c := cache[e.name := ReadExtra(store, provider, e)];
    if k > 0 {
      var tail := extras[1..];
      forall j | 0 <= j < |tail|
        ensures Differs(c, store, provider, tail[j]) == Differs(cache, store, provider, tail[j])
      {
        assert tail[j] == extras[j + 1];
      }
      ExtrasStopAtFirstChange(tail, c, store, provider, k - 1);
      var r := UpdateExtras(extras, cache, store, provider);
      assert r == UpdateExtras(tail, c, store, provider);
      forall j | 0 <= j <= k
        ensures extras[j].name in r.cache && r.cache[extras[j].name] == ReadExtra(store, provider, extras[j])
      {
        if j == 0 {
          assert forall i :: 0 <= i < |tail| ==> tail[i].name != e.name;
          assert Untouched(r.cache, c, e.name);
        } else {
          assert extras[j] == tail[j - 1];
        }
      }
      forall j | k < j < |extras|
        ensures Untouched(r.cache, cache, extras[j].name)
      {
        assert extras[j] == tail[j - 1];
      }
    }
  }

  /** When no extra changed, `_updateExtras` reports no change and has
      refreshed every extra. */
  lemma {:induction false} ExtrasNoChange(extras: seq<Extra>, cache: map<string, Value>,
                                          store: Store, provider: string)
    requires DistinctNames(extras)
    requires forall j :: 0 <= j < |extras| ==> !Differs(cache, store, provider, extras[j])
    ensures var r := UpdateExtras(extras, cache, store, provider);
            && !r.changed
            && forall j :: 0 <= j < |extras| ==>
                 extras[j].name in r.cache && r.cache[extras[j].name] == ReadExtra(store, provider, extras[j])
  {
    if |extras| > 0 {
      var e := extras[0];
      var c := cache[e.name := ReadExtra(store, provider, e)];
      var tail := extras[1..];
      forall j | 0 <= j < |tail|
        ensures !Differs(c, store, provider, tail[j])
      {
        assert tail[j] == extras[j + 1];
      }
      ExtrasNoChange(tail, c, store, provider);
      var r := UpdateExtras(extras, cache, store, provider);
      assert r == UpdateExtras(tail, c, store, provider);
      forall j | 0 <= j < |extras|
        ensures extras[j].name in r.cache && r.cache[extras[j].name] == ReadExtra(store, provider, extras[j])
      {
        if j == 0 {
          assert forall i :: 0 <= i < |tail| ==> tail[i].name != e.name;
          assert Untouched(r.cache, c, e.name);
        } else {
          assert extras[j] == tail[j - 1];
        }
      }
    }
  }

  /** The arguments `update(voice, speed)` is called with. */
  datatype Notice = Notice(voice: Value, speed: Value)

  datatype UpdateResult = UpdateResult(cache: Cache, notice: Option<Notice>)

  /** `_update`: voice, speed and extras are all re-read before the check;
      `update` is called iff one of the three results is truthy. */
  function Update(provider: string, extras: seq<Extra>, cache: Cache, store: Store): (r: UpdateResult)
    ensures r.cache.voice == Some(ReadVoice(store, provider))
    ensures r.cache.speed == Some(ReadSpeed(store, provider))
    ensures |extras| == 0 ==> r.cache.extras == cache.extras
    ensures r.notice.Some? ==> r.notice.value.voice in {PyNone, ReadVoice(store, provider)}
    ensures r.notice.Some? ==> r.notice.value.speed in {PyNone, ReadSpeed(store, provider)}
    ensures r.notice.Some? && !UpdateExtras(extras, cache.extras, store, provider).changed ==>
              Truthy(r.notice.value.voice) || Truthy(r.notice.value.speed)
    ensures r.notice.Some? <==>
              || Truthy(Changed(cache.voice, ReadVoice(store, provider)))
              || Truthy(Changed(cache.speed, ReadSpeed(store, provider)))
              || UpdateExtras(extras, cache.extras, store, provider).changed
    ensures r.notice.Some? ==>
              r.notice.value == Notice(Changed(cache.voice, ReadVoice(store, provider)),
                                       Changed(cache.speed, ReadSpeed(store, provider)))
    ensures cache.voice.None? && cache.speed.None? ==> r.notice.None? || r.notice == Some(Notice(PyNone, PyNone))
  {
    var voiceRead := ReadVoice(store, provider);
    var speedRead := ReadSpeed(store, provider);
    var voice := Changed(cache.voice, voiceRead);
    var speed := Changed(cache.speed, speedRead);
    var ex := UpdateExtras(extras, cache.extras, store, provider);
    var notice := if Truthy(voice) || Truthy(speed) || ex.changed then Some(Notice(voice, speed)) else None;
    UpdateResult(Cache(Some(voiceRead), Some(speedRead), ex.cache), notice)
  }

  /** A truthy voice or speed baseline that the store now replaces by a
      different truthy value makes `_update` call `update`, carrying the
      new value. */
  lemma TruthyChangeNotifies(provider: string, extras: seq<Extra>, cache: Cache, store: Store)
    requires
      || (cache.voice.Some? && Truthy(cache.voice.value) && Truthy(ReadVoice(store, provider))
          && !PyEq(ReadVoice(store, provider), cache.voice.value))
      || (cache.speed.Some? && Truthy(cache.speed.value) && Truthy(ReadSpeed(store, provider))
          && !PyEq(ReadSpeed(store, provider), cache.speed.value))
    ensures var r := Update(provider, extras, cache, store);
            && r.notice.Some?
            && (Truthy(r.notice.value.voice) || Truthy(r.notice.value.speed))
            && (r.notice.value.voice == PyNone || r.notice.value.voice == ReadVoice(store, provider))
            && (r.notice.value.speed == PyNone || r.notice.value.speed == ReadSpeed(store, provider))
  {
  }

  /** The first read only establishes the baseline: no `update` call. */
  lemma FirstUpdateIsQuiet(provider: string, extras: seq<Extra>, store: Store)
    requires DistinctNames(extras)
    ensures Update(provider, extras, NoCache, store).notice.None?
  {
    ExtrasNoChange(extras, map[], store, provider);
  }

  /** Reading unchanged settings again is quiet, provided the previous
      call re-read every extra (it stopped at no change). */
  lemma UpdateSettles(provider: string, extras: seq<Extra>, cache: Cache, store: Store)
    requires DistinctNames(extras)
    requires !UpdateExtras(extras, cache.extras, store, provider).changed
    ensures Update(provider, extras, Update(provider, extras, cache, store).cache, store).notice.None?
  {
    var r1 := UpdateExtras(extras, cache.extras, store, provider);
    forall j | 0 <= j < |extras|
      ensures !Differs(r1.cache, store, provider, extras[j])
    {
      ExtrasSeenFresh(extras, cache.extras, store, provider, j);
    }
    ExtrasNoChange(extras, r1.cache, store, provider);
  }

  /** After a call that reported no extras change, each extra's cached
      value is the latest read. */
  lemma {:induction false} ExtrasSeenFresh(extras: seq<Extra>, cache: map<string, Value>,
                                           store: Store, provider: string, j: nat)
    requires DistinctNames(extras) && j < |extras|
    requires !UpdateExtras(extras, cache, store, provider).changed
    ensures var r := UpdateExtras(extras, cache, store, provider);
            extras[j].name in r.cache && r.cache[extras[j].name] == ReadExtra(store, provider, extras[j])
  {
    var e := extras[0];
    var c := cache[e.name := ReadExtra(store, provider, e)];
    var tail := extras[1..];
    var r := UpdateExtras(extras, cache, store, provider);
    assert r == UpdateExtras(tail, c, store, provider);
    if j == 0 {
      assert forall i :: 0 <= i < |tail| ==> tail[i].name != e.name;
      assert Untouched(r.cache, c, e.name);
    } else {
      assert extras[j] == tail[j - 1];
      ExtrasSeenFresh(tail, c, store, provider, j - 1);
    }
  }

  /** A change to a falsy value is never reported on its own: the result
      is that falsy value, which does not trigger `update`. */
  lemma ChangeToFalsyIsSilent(cached: Option<Value>, latest: Value)
    requires !Truthy(latest)
    ensures !Truthy(Changed(cached, latest))
  {
  }

  /** Two extras changed at once are reported by two successive calls:
      the first call stops at the first extra and never re-reads the
      second. A third call is quiet. */
  lemma ExtrasChangeSeenOneCallLate()
    ensures var extras := [Extra("a", Int(0)), Extra("b", Int(0))];
            var cache := Cache(Some(Str("v")), Some(Int(5)), map["a" := Int(1), "b" := Int(1)]);
            var store := map["voice.p" := Str("v"), "speed.p" := Int(5), "a.p" := Int(2), "b.p" := Int(2)];
            var r1 := Update("p", extras, cache, store);
            var r2 := Update("p", extras, r1.cache, store);
            var r3 := Update("p", extras, r2.cache, store);
            && r1.notice == Some(Notice(PyNone, PyNone)) && r1.cache.extras["b"] == Int(1)
            && r2.notice == Some(Notice(PyNone, PyNone))
            && r3.notice.None?
  {
    var store := map["voice.p" := Str("v"), "speed.p" := Int(5), "a.p" := Int(2), "b.p" := Int(2)];
    assert Key("voice", "p") == "voice.p" && Key("speed", "p") == "speed.p";
    assert Key("a", "p") == "a.p" && Key("b", "p") == "b.p";
  }

  /** `_available`: a broken backend is refused whenever the
      `disable_broken_backends` setting (default true) holds; otherwise the
      engine's own availability decides. */
  function Available(broken: bool, store: Store, engineAvailable: bool): (r: bool)
    ensures r ==> engineAvailable
    ensures r <==> engineAvailable
                   && !(broken && Truthy(GetSetting(store, "disable_broken_backends", Bool(true))))
  {
    if broken && Truthy(GetSetting(store, "disable_broken_backends", Bool(true))) then false
    else engineAvailable
  }

  /** With the setting absent, a broken backend is never offered. */
  lemma BrokenRefusedByDefault(store: Store, engineAvailable: bool)
    requires "disable_broken_backends" !in store
    ensures !Available(true, store, engineAvailable)
  {
  }
}

=== FILE: speech_base.dfy ===
/** The queue items, the trace events and the default behaviour of
    `TTSBackendBase` in lib/backends/base.py. */
module SpeechBase {
  import opened Wrappers

  /** A queued request: text to speak, or a pause (`insertPause` puts an
      int of milliseconds into the same queue). */
  datatype Item = Utterance(text: string) | Pause(ms: nat)

  /** `insertPause`'s default length. */
  const DefaultPauseMs: nat := 500

  /** What a backend operation does to its collaborators, in order. */
  datatype Event =
    | EngineSay(text: string, interrupt: bool) // an engine's own `say`
    | Sleep(ms: nat)                      // a pause taken
    | StopHook                            // the engine's `stop()`
    | CloseHook                           // the engine's `close()`
    | Deactivate                          // `active = False`
    | Drained(items: seq<Item>)           // `_emptyQueue`, with what it discarded
    | PlayerStop                          // `player.stop()`
    | PlayerClose                         // `player.close()`
    | ThreadedSay(text: string)           // an engine's own `threadedSay`
    | GetOutFile                          // `player.getOutFile()`
    | RunCommand(text: string)            // the engine writes a wav file
    | PlayerPlay                          // `player.play()`
    | RunCommandAndSpeak(text: string)    // the engine speaks directly

  /** `texts.pop(0)` on an empty list raises IndexError. */
  datatype Fault = EmptyList

  /** The items `sayList` enqueues after its first text: a pause before
      each remaining text. */
  function PauseEach(ts: seq<string>): (r: seq<Item>)
    ensures |r| == 2 * |ts|
    ensures forall k :: 0 <= k < |r| ==>
              r[k] == (if k % 2 == 0 then Pause(DefaultPauseMs) else Utterance(ts[k / 2]))
  {
    if |ts| == 0 then []
    else
      var rest := PauseEach(ts[1..]);
      var r := [Pause(DefaultPauseMs), Utterance(ts[0])] + rest;
      assert forall k :: 2 <= k < |r| ==> r[k] == rest[k - 2];
      r
  }

  /** Everything `sayList(texts)` asks for, in order:
      t0, pause, t1, ..., pause, tn. */
  function Paced(texts: seq<string>): (r: seq<Item>)
    requires |texts| > 0
    ensures |r| == 2 * |texts| - 1
    ensures forall k :: 0 <= k < |r| ==>
              r[k] == (if k % 2 == 0 then Utterance(texts[k / 2]) else Pause(DefaultPauseMs))
  {
    var rest := PauseEach(texts[1..]);
    var r := [Utterance(texts[0])] + rest;
    assert forall k :: 1 <= k < |r| ==> r[k] == rest[k - 1];
    r
  }

  /** How the default `sayList` carries out one item: `say(t)` or the
      default `insertPause`, which sleeps. */
  function BaseEvent(item: Item): Event
  {
    match item
    case Utterance(t) => EngineSay(t, false)
    case Pause(ms) => Sleep(ms)
  }

  function BaseEvents(items: seq<Item>): (r: seq<Event>)
    ensures |r| == |items|
    ensures forall k :: 0 <= k < |r| ==> r[k] == BaseEvent(items[k])
  {
    if |items| == 0 then [] else [BaseEvent(items[0])] + BaseEvents(items[1..])
  }

  /** `TTSBackendBase.sayList`: the first text is said with the caller's
      interrupt flag, every later one after a sleep and without it. */
  function BaseSayList(texts: seq<string>, interrupt: bool): (r: Result<seq<Event>, Fault>)
    ensures r.Err? <==> |texts| == 0
    ensures r.Ok? ==> |r.value| == 2 * |texts| - 1 && r.value[0] == EngineSay(texts[0], interrupt)
    ensures r.Ok? ==> forall k :: 0 < k < |r.value| ==>
              r.value[k] == (if k % 2 == 0 then EngineSay(texts[k / 2], false) else Sleep(DefaultPauseMs))
  {
    if |texts| == 0 then Err(EmptyList)
    else Ok([EngineSay(texts[0], interrupt)] + BaseEvents(PauseEach(texts[1..])))
  }

  /** `TTSBackendBase._stop`: the engine's stop hook. */
  function BaseStop(): (r: seq<Event>)
    ensures StopHook in r && CloseHook !in r
    ensures |r| == 1
  {
    [StopHook]
  }

  /** `TTSBackendBase._close`: whatever `_stop` the backend's class
      defines, then the engine's close hook. */
  function BaseClose(stop: seq<Event>): (r: seq<Event>)
    ensures |r| == |stop| + 1 && r[..|stop|] == stop
    ensures r[|stop|] == CloseHook
  {
    stop + [CloseHook]
  }
}

=== FILE: speech_queue.dfy ===
/** `ThreadedTTSBackend` and `SimpleTTSBackendBase` in lib/backends/base.py
    as state transitions: each caller-side operation and each step of the
    worker returns the new backend record and the events it caused. */
module SpeechQueue {
  import opened Wrappers
  import opened SpeechBase

  /** `SimpleTTSBackendBase.WAVOUT` / `ENGINESPEAK` */
  datatype Mode = WavOut | EngineSpeak

  /** Which class's overrides apply. */
  datatype Kind = Threaded | Simple(mode: Mode)

  /** The worker-visible state: the active flag, the FIFO, the flag the
      worker sets around `threadedSay`, and the flag an ENGINESPEAK
      backend sets around the engine's own speaking. */
  datatype Backend = Backend(active: bool, queue: seq<Item>, speaking: bool, engineSpeaking: bool)

  /** A new state and the events that led to it. */
  datatype Outcome = Outcome(st: Backend, events: seq<Event>)

  /** The state right after `threadedInit`. */
  const Started := Backend(true, [], false, false)

  /** `_emptyQueue` */
  function Drain(b: Backend): (r: Outcome)
    ensures r.st.queue == [] && r.st.(queue := b.queue) == b
    ensures r.events == [Drained(b.queue)]
  {
    Outcome(b.(queue := []), [Drained(b.queue)])
  }

  /** `_stop`: a simple backend stops its player first; both then drain
      the queue and run the engine's stop hook last. */
  function Stop(kind: Kind, b: Backend): (r: Outcome)
    ensures r.st == b.(queue := [])
    ensures r.events == (if kind.Simple? then [PlayerStop] else []) + [Drained(b.queue), StopHook]
  {
    var d := Drain(b);
    var threaded := d.events + BaseStop();
    Outcome(d.st, if kind.Simple? then [PlayerStop] + threaded else threaded)
  }

  /** `_close`: deactivate, run `TTSBackendBase._close` (which calls the
      class's own `_stop`, then the close hook), drain once more; a
      simple backend then closes its player. */
  function Close(kind: Kind, b: Backend): (r: Outcome)
    ensures !r.st.active && r.st.queue == []
    ensures r.st.speaking == b.speaking && r.st.engineSpeaking == b.engineSpeaking
    ensures kind.Threaded? ==>
              r.events == [Deactivate, Drained(b.queue), StopHook, CloseHook, Drained([])]
    ensures kind.Simple? ==>
              r.events == [Deactivate, PlayerStop, Drained(b.queue), StopHook, CloseHook, Drained([]), PlayerClose]
  {
    var off := b.(active := false);
    var s := Stop(kind, off);
    var d := Drain(s.st);
    var threaded := Outcome(d.st, [Deactivate] + BaseClose(s.events) + d.events);
    if kind.Simple? then Outcome(threaded.st, threaded.events + [PlayerClose]) else threaded
  }

  /** `say(text, interrupt)`: nothing on an inactive backend; with
      `interrupt` the class's `_stop` runs before the text is queued. */
  function Say(kind: Kind, b: Backend, text: string, interrupt: bool): (r: Outcome)
    ensures !b.active ==> r == Outcome(b, [])
    ensures b.active && interrupt ==> r.st.queue == [Utterance(text)] && r.events == Stop(kind, b).events
    ensures b.active && !interrupt ==> r.st.queue == b.queue + [Utterance(text)] && r.events == []
    ensures r.st.(queue := b.queue) == b
  {
    if !b.active then Outcome(b, [])
    else
      var s := if interrupt then Stop(kind, b) else Outcome(b, []);
      Outcome(s.st.(queue := s.st.queue + [Utterance(text)]), s.events)
  }

  /** `insertPause(ms)`: like `sayList`, it does not look at the active
      flag; the pause goes to the tail of the queue. */
  function InsertPause(b: Backend, ms: nat): (r: Backend)
    ensures r.queue == b.queue + [Pause(ms)]
    ensures |r.queue| == |b.queue| + 1 && r.queue[|b.queue|] == Pause(ms)
    ensures r.(queue := b.queue) == b
  {
    b.(queue := b.queue + [Pause(ms)])
  }

  /** A state and its events, together with the exception the call raised. */
  datatype ListOutcome = ListOutcome(st: Backend, events: seq<Event>, raised: Option<Fault>)

  /** `sayList(texts, interrupt)`: unlike `say`, it does not look at the
      active flag. The interrupt's `_stop` runs before `texts.pop(0)`, so
      an empty list raises after the queue was already drained. */
  function SayList(kind: Kind, b: Backend, texts: seq<string>, interrupt: bool): (r: ListOutcome)
    ensures r.raised.Some? <==> |texts| == 0
    ensures r.events == (if interrupt then Stop(kind, b).events else [])
    ensures r.st.(queue := b.queue) == b
    ensures |texts| > 0 ==> r.st.queue == (if interrupt then [] else b.queue) + Paced(texts)
    ensures |texts| > 0 ==> |r.st.queue| == (if interrupt then 0 else |b.queue|) + 2 * |texts| - 1
    ensures |texts| == 0 ==> r.st.queue == (if interrupt then [] else b.queue)
  {
    var s := if interrupt then Stop(kind, b) else Outcome(b, []);
    if |texts| == 0 then ListOutcome(s.st, s.events, Some(EmptyList))
    else ListOutcome(s.st.(queue := s.st.queue + Paced(texts)), s.events, None)
  }

  /** `ThreadedTTSBackend.isSpeaking`: an utterance in flight or work
      still queued. */
  predicate QueueBusy(b: Backend)
    ensures !QueueBusy(b) ==> b.queue == [] && !b.speaking
    ensures b.queue != [] ==> QueueBusy(b)
  {
    b.speaking || |b.queue| > 0
  }

  /** `isSpeaking` of the backend's class; `playerPlaying` is what the
      player's `isPlaying()` reports. */
  predicate IsSpeaking(kind: Kind, b: Backend, playerPlaying: bool)
    ensures kind.Threaded? ==> (IsSpeaking(kind, b, playerPlaying) <==> QueueBusy(b))
    ensures kind.Simple? && (b.engineSpeaking || playerPlaying) ==> IsSpeaking(kind, b, playerPlaying)
    ensures kind.Simple? && !b.engineSpeaking && !playerPlaying && !QueueBusy(b) ==>
              !IsSpeaking(kind, b, playerPlaying)
    ensures !IsSpeaking(kind, b, playerPlaying) ==> b.queue == [] && !b.speaking
  {
    match kind
    case Threaded => QueueBusy(b)
    case Simple(_) => b.engineSpeaking || playerPlaying || QueueBusy(b)
  }

  /** The effect of one `threadedSay(text)`: its events, and whether the
      engine-speaking flag is raised while it runs. */
  datatype SayEffect = SayEffect(events: seq<Event>, engineSpeaking: bool)

  /** `threadedSay`. A plain threaded backend is the engine's own override;
      a simple backend skips empty text, writes then plays a file in
      WAVOUT, and speaks directly in ENGINESPEAK. */
  function ThreadedSayEffect(kind: Kind, text: string): (r: SayEffect)
    ensures kind.Threaded? ==> r == SayEffect([ThreadedSay(text)], false)
    ensures kind.Simple? && text == "" ==> r == SayEffect([], false)
    ensures kind == Simple(WavOut) && text != "" ==>
              r == SayEffect([GetOutFile, RunCommand(text), PlayerPlay], false)
    ensures kind == Simple(EngineSpeak) && text != "" ==>
              r == SayEffect([RunCommandAndSpeak(text)], true)
    ensures r.engineSpeaking ==> PlayerPlay !in r.events && GetOutFile !in r.events
  {
    match kind
    case Threaded => SayEffect([ThreadedSay(text)], false)
    case Simple(mode) =>
      if text == "" then SayEffect([], false)
      else if mode == WavOut then SayEffect([GetOutFile, RunCommand(text), PlayerPlay], false)
      else SayEffect([RunCommandAndSpeak(text)], true)
  }

  /** The events the worker produces for one dequeued item. */
  function ItemEvents(kind: Kind, item: Item): seq<Event>
  {
    match item
    case Pause(ms) => [Sleep(ms)]
    case Utterance(t) => ThreadedSayEffect(kind, t).events
  }

  /** One pass of the worker loop: the state an observer sees while the
      item is handled, the state after it, and the events. */
  datatype Step = Step(during: Backend, after: Backend, events: seq<Event>)

  /** One iteration of `_handleQueue`. None when the loop condition
      (`active` and no abort) fails; an empty queue is a timed-out `get`. */
  function WorkerStep(kind: Kind, b: Backend, abort: bool): (r: Option<Step>)
    ensures r.None? <==> !b.active || abort
    ensures r.Some? && |b.queue| == 0 ==> r.value == Step(b, b, [])
    ensures r.Some? && |b.queue| > 0 ==>
              && r.value.during.queue == b.queue[1..] && r.value.after.queue == b.queue[1..]
              && r.value.events == ItemEvents(kind, b.queue[0])
              && r.value.after.active && r.value.during.active
    ensures r.Some? && |b.queue| > 0 && b.queue[0].Utterance? ==>
              r.value.during.speaking && !r.value.after.speaking
    ensures r.Some? && |b.queue| > 0 && b.queue[0].Pause? ==>
              r.value.during == r.value.after == b.(queue := b.queue[1..])
              && r.value.events == [Sleep(b.queue[0].ms)]
    ensures r.Some? && |b.queue| > 0 && b.queue[0].Utterance? ==>
              r.value.events == ThreadedSayEffect(kind, b.queue[0].text).events
    ensures r.Some? && |b.queue| > 0 && b.queue[0].Utterance? && kind == Simple(EngineSpeak)
            && b.queue[0].text != "" ==>
              r.value.during.engineSpeaking && !r.value.after.engineSpeaking
    ensures r.Some? && !(kind == Simple(EngineSpeak) && |b.queue| > 0 && b.queue[0].Utterance?
                         && b.queue[0].text != "") ==>
              r.value.during.engineSpeaking == b.engineSpeaking && r.value.after.engineSpeaking == b.engineSpeaking
  {
    if !b.active || abort then None
    else if |b.queue| == 0 then Some(Step(b, b, []))
    else
      var rest := b.queue[1..];
      match b.queue[0]
      case Pause(ms) =>
        var s := b.(queue := rest);
        Some(Step(s, s, [Sleep(ms)]))
      case Utterance(t) =>
        var e := ThreadedSayEffect(kind, t);
        var during := b.(queue := rest, speaking := true,
                         engineSpeaking := if e.engineSpeaking then true else b.engineSpeaking);
        var after := b.(queue := rest, speaking := false,
                        engineSpeaking := if e.engineSpeaking then false else b.engineSpeaking);
        Some(Step(during, after, e.events))
  }
}

=== FILE: speech_run.dfy ===
/** Runs of the worker of lib/backends/base.py over a whole queue: the
    FIFO order of what it does, the busy flag an outside caller observes,
    and the effect of interrupting and of closing. */
module SpeechRun {
  import opened Wrappers
  import opened SpeechBase
  import opened SpeechQueue

  /** The per-item reference semantics: each queued item's events, in
      queue order. */
  function ItemsEvents(kind: Kind, items: seq<Item>): seq<Event>
  {
    if |items| == 0 then [] else ItemEvents(kind, items[0]) + ItemsEvents(kind, items[1..])
  }

  /** A worker run: the final state, every event, and every state an
      outside caller can observe along the way (while an item is handled,
      and after it). */
  datatype Run = Run(final: Backend, events: seq<Event>, observed: seq<Backend>)

  /** The worker, without abort, until its queue is empty. */
  function RunToIdle(kind: Kind, b: Backend): (r: Run)
    ensures b.active ==> r.final.queue == [] && r.final.active
    ensures b.active ==> |r.observed| == 2 * |b.queue|
    ensures !b.active ==> r == Run(b, [], [])
    decreases |b.queue|
  {
    if !b.active || |b.queue| == 0 then Run(b, [], [])
    else
      var s := WorkerStep(kind, b, false).value;
      var rest := RunToIdle(kind, s.after);
      Run(rest.final, s.events + rest.events, [s.during, s.after] + rest.observed)
  }

  /** FIFO: the worker handles exactly the queued items, each once, in
      the order they were queued. */
  lemma {:induction false} FifoOrder(kind: Kind, b: Backend)
    requires b.active
    ensures RunToIdle(kind, b).events == ItemsEvents(kind, b.queue)
    decreases |b.queue|
  {
    if |b.queue| > 0 {
      var s := WorkerStep(kind, b, false).value;
      FifoOrder(kind, s.after);
    }
  }

  /** A queue whose last item is text, as every `say` and `sayList`
      leaves it. */
  predicate EndsInUtterance(q: seq<Item>)
  {
    |q| > 0 && q[|q| - 1].Utterance?
  }

  /** An outside caller sees the backend busy at every point of the run
      until the last utterance has been spoken, and idle afterwards. */
  lemma {:induction false} BusyUntilDrained(kind: Kind, b: Backend)
    requires b.active && EndsInUtterance(b.queue)
    ensures var r := RunToIdle(kind, b);
            && |r.observed| > 0 && r.observed[|r.observed| - 1] == r.final
            && (forall i :: 0 <= i < |r.observed| - 1 ==> QueueBusy(r.observed[i]))
            && !QueueBusy(r.final)
    decreases |b.queue|
  {
    var s := WorkerStep(kind, b, false).value;
    var rest := RunToIdle(kind, s.after);
    var r := RunToIdle(kind, b);
    assert r.observed == [s.during, s.after] + rest.observed;
    if |b.queue| == 1 {
      assert rest == Run(s.after, [], []);
    } else {
      assert s.after.queue == b.queue[1..];
      assert EndsInUtterance(s.after.queue);
      BusyUntilDrained(kind, s.after);
      assert QueueBusy(s.during) && QueueBusy(s.after);
      forall i | 0 <= i < |r.observed| - 1
        ensures QueueBusy(r.observed[i])
      {
        if i >= 2 {
          assert r.observed[i] == rest.observed[i - 2];
        }
      }
    }
  }

  /** A simple backend is speaking whenever its threaded part is busy. */
  lemma SimpleBusyIsSpeaking(mode: Mode, b: Backend, playerPlaying: bool)
    requires QueueBusy(b)
    ensures IsSpeaking(Simple(mode), b, playerPlaying)
  {
  }

  /** `say(text, interrupt=True)` on an active backend discards everything
      that was waiting: the worker goes on with the new text alone. */
  lemma InterruptRestartsQueue(kind: Kind, b: Backend, text: string)
    requires b.active
    ensures RunToIdle(kind, Say(kind, b, text, true).st).events == ItemEvents(kind, Utterance(text))
  {
  }

  /** Without interrupt, what `say` and `sayList` enqueue is handled after
      everything already waiting, in call order. */
  lemma {:induction false} ItemsEventsAppend(kind: Kind, a: seq<Item>, c: seq<Item>)
    ensures ItemsEvents(kind, a + c) == ItemsEvents(kind, a) + ItemsEvents(kind, c)
  {
    if |a| == 0 {
      assert a + c == c;
    } else {
      assert (a + c)[0] == a[0];
      assert (a + c)[1..] == a[1..] + c;
      ItemsEventsAppend(kind, a[1..], c);
    }
  }

  /** `say` without interrupt is spoken after everything already waiting. */
  lemma SayRunsAfterPending(kind: Kind, b: Backend, text: string)
    requires b.active
    ensures RunToIdle(kind, Say(kind, b, text, false).st).events
            == ItemsEvents(kind, b.queue) + ItemEvents(kind, Utterance(text))
  {
    var st := Say(kind, b, text, false).st;
    FifoOrder(kind, st);
    ItemsEventsAppend(kind, b.queue, [Utterance(text)]);
    assert ItemsEvents(kind, [Utterance(text)]) == ItemEvents(kind, Utterance(text)) + ItemsEvents(kind, []);
  }

  /** `insertPause(ms)` on an active backend: the worker sleeps `ms` after
      everything already waiting, and does nothing else for it. */
  lemma InsertPauseRunsAfterPending(kind: Kind, b: Backend, ms: nat)
    requires b.active
    ensures RunToIdle(kind, InsertPause(b, ms)).events == ItemsEvents(kind, b.queue) + [Sleep(ms)]
  {
    FifoOrder(kind, InsertPause(b, ms));
    ItemsEventsAppend(kind, b.queue, [Pause(ms)]);
    assert ItemsEvents(kind, [Pause(ms)]) == ItemEvents(kind, Pause(ms)) + ItemsEvents(kind, []);
  }

  /** A simple backend whose engine is not speaking goes idle once its
      worker has drained the queue, as soon as its player stops playing. */
  lemma {:induction false} SimpleIdleAfterDrain(mode: Mode, b: Backend)
    requires b.active && EndsInUtterance(b.queue) && !b.engineSpeaking
    ensures !IsSpeaking(Simple(mode), RunToIdle(Simple(mode), b).final, false)
    decreases |b.queue|
  {
    var s := WorkerStep(Simple(mode), b, false).value;
    if |b.queue| == 1 {
      assert RunToIdle(Simple(mode), s.after) == Run(s.after, [], []);
    } else {
      assert s.after.queue == b.queue[1..];
      assert EndsInUtterance(s.after.queue);
      SimpleIdleAfterDrain(mode, s.after);
    }
  }

  /** `sayList` without interrupt on an active backend: its paced items
      follow everything already waiting. */
  lemma SayListRunsAfterPending(kind: Kind, b: Backend, texts: seq<string>)
    requires b.active && |texts| > 0
    ensures RunToIdle(kind, SayList(kind, b, texts, false).st).events
            == ItemsEvents(kind, b.queue) + ItemsEvents(kind, Paced(texts))
  {
    FifoOrder(kind, SayList(kind, b, texts, false).st);
    ItemsEventsAppend(kind, b.queue, Paced(texts));
  }

  /** The end-to-end run: `sayList(["a", "b", "c"])` on a fresh threaded
      backend is spoken as a, pause, b, pause, c, and the backend reports
      speaking until c is done. */
  lemma SayListThenRun()
    ensures var q := SayList(Threaded, Started, ["a", "b", "c"], false).st;
            && q.queue == [Utterance("a"), Pause(500), Utterance("b"), Pause(500), Utterance("c")]
            && RunToIdle(Threaded, q).events
               == [ThreadedSay("a"), Sleep(500), ThreadedSay("b"), Sleep(500), ThreadedSay("c")]
            && (forall i :: 0 <= i < |RunToIdle(Threaded, q).observed| - 1 ==>
                  QueueBusy(RunToIdle(Threaded, q).observed[i]))
  {
    var q := SayList(Threaded, Started, ["a", "b", "c"], false).st;
    ABCQueue(q);
    FifoOrder(Threaded, q);
    BusyUntilDrained(Threaded, q);
    ABCEvents(q.queue);
  }

  /** What `sayList(["a", "b", "c"])` queues on a fresh threaded backend. */
  lemma ABCQueue(q: Backend)
    requires q == SayList(Threaded, Started, ["a", "b", "c"], false).st
    ensures q.active
    ensures q.queue == [Utterance("a"), Pause(500), Utterance("b"), Pause(500), Utterance("c")]
  {
    var p := Paced(["a", "b", "c"]);
    assert p[0] == Utterance("a") && p[1] == Pause(500) && p[2] == Utterance("b");
    assert p[3] == Pause(500) && p[4] == Utterance("c");
    assert q.queue == p;
  }

  /** The events of the paced `["a", "b", "c"]`, item by item. */
  lemma ABCEvents(p: seq<Item>)
    requires p == [Utterance("a"), Pause(500), Utterance("b"), Pause(500), Utterance("c")]
    ensures ItemsEvents(Threaded, p)
            == [ThreadedSay("a"), Sleep(500), ThreadedSay("b"), Sleep(500), ThreadedSay("c")]
  {
    assert ItemsEvents(Threaded, p[5..]) == [];
    assert ItemsEvents(Threaded, p[4..]) == [ThreadedSay("c")];
    assert ItemsEvents(Threaded, p[3..]) == [Sleep(500), ThreadedSay("c")];
    assert ItemsEvents(Threaded, p[2..]) == [ThreadedSay("b"), Sleep(500), ThreadedSay("c")];
    assert ItemsEvents(Threaded, p[1..]) == [Sleep(500), ThreadedSay("b"), Sleep(500), ThreadedSay("c")];
  }

  /** After `_close` no worker step happens: `say` is ignored, but
      `sayList` still queues its items, which nothing will consume, so
      the backend keeps reporting that it is speaking. */
  lemma SayListAfterClose(kind: Kind, b: Backend, texts: seq<string>, abort: bool)
    requires |texts| > 0
    ensures var closed := Close(kind, b).st;
            && WorkerStep(kind, closed, abort).None?
            && Say(kind, closed, texts[0], false).st == closed
            && var after := SayList(kind, closed, texts, false).st;
               |after.queue| == 2 * |texts| - 1 && WorkerStep(kind, after, abort).None?
               && QueueBusy(after)
  {
  }
}

=== FILE: wrappers.dfy ===
/** The optional-value and value-or-error datatypes the other modules share. */
module Wrappers {

  /** Python's `None` versus a present value. */
  datatype Option<+T> = None | Some(value: T)

  /** A value, or the exception the source would raise instead. */
  datatype Result<+T, +E> = Ok(value: T) | Err(error: E)
}
